=== FILE: README.md ===
# Warehouse dashboard: users, roles and request authorization

This project models the identity and authorization core of the warehouse
dashboard backend in Dafny. It covers:

- the user service: create, list, read, update, soft-delete, role
  (re)assignment and credential validation, over a store of users, roles,
  permissions, user–role rows and role–permission rows;
- the login endpoint, which validates a code and password and signs a
  token carrying `{ code, sub }`;
- the JWT strategy, which re-loads the user graph by `code` on every
  request;
- the permissions guard, which allows a request when the caller holds at
  least one declared permission.

Nothing is deleted physically. Users and user–role rows carry a deletion
stamp (`deletedAt`), and every read filters on an absent stamp. The store is
an immutable value `Db`. Each service operation is a function from the store
to an `Outcome`, which pairs the result (a value or a `ServiceError`) with the
store after the writes. Time is an explicit `now` parameter, and bcrypt's salt
is an explicit `salt` parameter.

Modules:

| module | file | what it holds |
|---|---|---|
| `Wrappers` | wrappers.dfy | `Option`, `Result` |
| `Tables` | tables.dfy | rows, the `Db`, lookups in `findFirst` order, auto-increment ids, the password hash stand-in, the store invariant `WellFormed` |
| `UserRows` | user_rows.dfy | user–role rows: active rows of a user, `assignRoles`, the soft-delete cascade |
| `UserGraph` | user_graph.dfy | the nested `include` that `findByCode` loads (user → active user–roles → role → active role–permissions → permission) |
| `UserService` | user_service.dfy | the service operations and `formatUserResponse` |
| `UserServiceProofs` | user_service_proofs.dfy | what the writes preserve and what reads see afterwards |
| `PermissionsGuard` | permissions_guard.dfy | `canActivate`, `extractPermissionsFromUser` over the loosely typed request user |
| `JwtStrategy` | jwt_strategy.dfy | the claim, the token, `validate` |
| `AuthController` | auth_controller.dfy | `login` |
| `Pipeline` | pipeline.dfy | login → token → validate → guard, end to end |

## Model

| member | source | states |
|---|---|---|
| Tables.FirstIndex | backend-api/src/modules/user/user.service.ts:93-97 | `findFirst`: the first row satisfying the filter, or none when no row does |
| Tables.ActiveById | backend-api/src/modules/user/user.service.ts:153-158 | the lookup `{ id, deletedAt: null }` finds an active row with that id, and finds none exactly when no active row has it |
| Tables.ActiveByCode | backend-api/src/modules/user/user.service.ts:16-21 | the lookup `{ code, deletedAt: null }` finds an active row with that code, and finds none exactly when no active row has it |
| Tables.ActiveByCodeExcept | backend-api/src/modules/user/user.service.ts:166-172 | the conflict lookup finds an active row with the code and a different id, and finds none exactly when there is none |
| Tables.RoleById | backend-api/src/modules/user/user.service.ts:128-141 | resolving a role reference yields a role from the table with that id, or nothing |
| Tables.PermissionById | backend-api/src/modules/user/user.service.ts:134-141 | resolving a permission reference yields a permission from the table with that id, or nothing |
| Tables.NextUserId | backend-api/src/modules/user/user.service.ts:35-42 | the id the database assigns to an inserted user is positive and greater than every id already in the table |
| UserRows.ActiveRowsOf | backend-api/src/modules/user/user.service.ts:130-131 | a row is among a user's loaded roles iff it is in the table, belongs to that user and carries no deletion stamp |
| UserRows.NewRows | backend-api/src/modules/user/user.service.ts:254-257 | one row per requested role id, in order, owned by the user and active |
| UserRows.AssignRoles | backend-api/src/modules/user/user.service.ts:253-262 | the rows are appended: existing rows are untouched, the user's active rows become the old ones followed by the new ones, and every other user's active rows are unchanged |
| UserRows.SoftDeleteRolesOf | backend-api/src/modules/user/user.service.ts:243-250 | the cascade keeps every row, so the table length is unchanged; what it stamps is stated by `UserRows.SoftDeleteRolesOfSpec` |
| UserRows.SoftDeleteRolesOfSpec | backend-api/src/modules/user/user.service.ts:243-250 | the cascade leaves the user no active row and stamps every row the user had; rows of other users and rows already stamped are unchanged; no row is removed and no row changes owner or role |
| UserRows.ActiveRowsAppend | backend-api/src/modules/user/user.service.ts:253-262 | the active rows of a concatenated table are the active rows of each part, concatenated |
| UserGraph.ActiveGrantsOf | backend-api/src/modules/user/user.service.ts:135-136 | a role's loaded grants are exactly its role–permission rows without a deletion stamp |
| UserGraph.JoinPermissions | backend-api/src/modules/user/user.service.ts:134-141 | each loaded grant comes from one of the given rows and carries the permission its id names |
| UserGraph.JoinPermissionsTotal | backend-api/src/modules/user/user.service.ts:134-141 | when every grant's permission id resolves, the join loads every grant, in order |
| UserGraph.LoadRole | backend-api/src/modules/user/user.service.ts:133-141 | a role loads iff its id names a role; the loaded role is that row, and its grants come from active role–permission rows of that role, each carrying the permission its `permissionId` names |
| UserGraph.JoinRoles | backend-api/src/modules/user/user.service.ts:128-144 | each loaded user–role comes from one of the given rows and carries the loaded role its id names |
| UserGraph.JoinRolesTotal | backend-api/src/modules/user/user.service.ts:128-144 | when every row's role id resolves, the join loads every row, in order |
| UserGraph.FindByCode | backend-api/src/modules/user/user.service.ts:122-147 | `findByCode` returns nothing iff no active user has the code; otherwise it returns an active user with that code, and every user–role and grant in the loaded graph comes from an active row of that user and of that role, each grant carrying the permission its `permissionId` names |
| UserGraph.LoadUserRolesComplete | backend-api/src/modules/user/user.service.ts:128-144 | when every role reference resolves, the loaded roles are exactly the user's active rows, in table order |
| UserService.Respond | backend-api/src/modules/user/user.service.ts:283-307 | `formatUserResponse` copies the user's id, name, code, store id, language and creation time |
| UserServiceProofs.RespondListsActiveRoles | backend-api/src/modules/user/user.service.ts:299-305 | every role in a response is a role of the table named by one of the user's active user–role rows; when every row's role exists, the list is exactly those rows' roles, in table order |
| UserService.Create | backend-api/src/modules/user/user.service.ts:14-66 | conflict iff an active user holds the code, and then nothing is written; otherwise a new active user with the next id, the given fields, a hash that accepts the password and the language defaulted to `tieng_viet` is appended, and the response carries that row's id, name, code, store id, language and creation time; the other rows are kept; no other table changes except appended user–role rows |
| UserService.ApplyUpdate | backend-api/src/modules/user/user.service.ts:179-194 | each present name, code, store id and language overwrites the stored one and each absent one keeps it; a truthy password is rehashed into a hash that accepts it, otherwise the hash is kept; id, creation time and deletion stamp never change |
| UserService.UpdateUserRoles | backend-api/src/modules/user/user.service.ts:264-281 | afterwards the user's active role ids are exactly the requested list, in order; the rows appended at the end of the table are exactly the new ones; every previous row of the user is stamped; existing rows keep their owner and role, and already stamped rows are unchanged; no other user's roles change; only the user–role table is written |
| UserService.Update | backend-api/src/modules/user/user.service.ts:149-223 | not found iff no active user has the id; for an active user, the only failure is a conflict, which happens iff a truthy code differs from the current one and another active user holds it; on failure nothing is written; on success the user's row becomes `ApplyUpdate` of the old one, the response carries the written row's id, name, code, store id, language and creation time, and no other user row changes; the user–role table becomes `UpdateUserRoles`' result when `roleIds` is present and is untouched otherwise |
| UserService.Remove | backend-api/src/modules/user/user.service.ts:225-251 | not found iff no active user has the id; otherwise only that user's row gets the stamp, its active user–role rows are stamped, other users' roles and already stamped rows are untouched, every row keeps its owner and role, and nothing is removed |
| UserService.FindOne | backend-api/src/modules/user/user.service.ts:92-120 | not found iff no active user has the id; otherwise the response of an active user with that id |
| UserService.ActiveUsers | backend-api/src/modules/user/user.service.ts:69-70 | the users kept are exactly the active ones |
| UserService.SortNewestFirst | backend-api/src/modules/user/user.service.ts:86 | the ordering `createdAt desc` is a permutation of its input whose creation times never increase |
| UserService.LoadAll | backend-api/src/modules/user/user.service.ts:68-88 | `findAll` loads every active user exactly once, and no other, in non-increasing creation time |
| UserService.FindAll | backend-api/src/modules/user/user.service.ts:68-90 | the i-th response is the response of the i-th user `LoadAll` returns, so there is exactly one response per active user, in non-increasing creation time |
| UserServiceProofs.FindAllListsEveryActiveUser | backend-api/src/modules/user/user.service.ts:68-90 | every active user's response appears in the `findAll` list |
| UserService.ValidateUser | backend-api/src/modules/user/user.service.ts:309-316 | a user is returned iff the code names an active user whose hash accepts the password; the result is that user's loaded graph without the hash: its id, code, name, store id, language, creation time and roles |
| UserServiceProofs.CreatePreservesWellFormed | backend-api/src/modules/user/user.service.ts:14-66 | create keeps user ids unique, active codes unique, and every user–role row owned by an allocated id |
| UserServiceProofs.CreateAssignsRoles | backend-api/src/modules/user/user.service.ts:60-65 | after create the new user's active role ids are the requested ones (none when absent), but the response lists no role, because it was built before the assignment; other users' roles are unchanged |
| Pipeline.LoginTokenResolves | backend-api/src/modules/auth/auth.controller.ts:41-42 | the token a successful login returns resolves, on the next request, to an identity with the same user id |
| UserServiceProofs.UpdatePreservesWellFormed | backend-api/src/modules/user/user.service.ts:149-223 | an update with a non-empty code, as the request validation demands, keeps the store invariant |
| UserServiceProofs.UpdateKeepsUserKeys | backend-api/src/modules/user/user.service.ts:164-177 | a successful update keeps user ids and active codes unique: a changed, non-empty code has passed the check that no other active user holds it |
| UserServiceProofs.UpdateKeepsOwners | backend-api/src/modules/user/user.service.ts:264-281 | a successful update, with or without a role reassignment, leaves every user–role row owned by an allocated user id |
| UserServiceProofs.UpdateRespondsWithPriorRoles | backend-api/src/modules/user/user.service.ts:196-222 | the response of update lists the roles the user had before the call, even when `roleIds` replaced them |
| UserServiceProofs.RemovePreservesWellFormed | backend-api/src/modules/user/user.service.ts:225-251 | remove keeps the store invariant |
| UserServiceProofs.RemoveHidesUser | backend-api/src/modules/user/user.service.ts:225-251 | after remove, the user is not found by id, no longer found by code, and has no loaded roles |
| PermissionsGuard.NamesOfGrants | backend-api/src/modules/auth/guards/permissions.guard.ts:50-54 | a name is collected iff one of the grants has a permission of that name; grants without a permission are skipped |
| PermissionsGuard.NamesOfRole | backend-api/src/modules/auth/guards/permissions.guard.ts:49-55 | the names under one user–role are exactly the names its role grants; a missing role or grant list gives none |
| PermissionsGuard.NamesOfUserRoles | backend-api/src/modules/auth/guards/permissions.guard.ts:47-57 | a name is collected iff some user–role has a role with grants, one of which has a permission of that name; missing parts are skipped |
| PermissionsGuard.Dedup | backend-api/src/modules/auth/guards/permissions.guard.ts:59 | de-duplication keeps exactly the same names and leaves no duplicates |
| PermissionsGuard.ExtractPermissions | backend-api/src/modules/auth/guards/permissions.guard.ts:44-60 | the extracted list has no duplicates and holds a name iff the request user holds it through some role |
| PermissionsGuard.SomeIncluded | backend-api/src/modules/auth/guards/permissions.guard.ts:31-33 | true iff some required name is in the held list |
| PermissionsGuard.CanActivate | backend-api/src/modules/auth/guards/permissions.guard.ts:14-42 | no declaration allows anyone; a declaration with no user is refused as unauthenticated; otherwise allowed iff the user holds at least one declared permission, and refused with a message naming only the declared permissions; an empty declaration refuses everybody |
| PermissionsGuard.DenialIndependentOfCaller | backend-api/src/modules/auth/guards/permissions.guard.ts:35-39 | two callers refused at the same endpoint get the same refusal, so it reveals nothing about what either holds |
| PermissionsGuard.OrSemanticsExample | backend-api/src/modules/auth/guards/permissions.guard.ts:29-39 | an endpoint declaring A and B admits a holder of B alone and refuses a holder of C alone |
| JwtStrategy.Validate | backend-api/src/modules/auth/strategies/jwt.strategy.ts:16-22 | no identity iff no active user has the claim's code; otherwise the active user with that code and the roles the store holds now |
| JwtStrategy.ValidateIgnoresSub | backend-api/src/modules/auth/strategies/jwt.strategy.ts:17 | two claims with the same code and different subjects resolve to the same identity |
| AuthController.Login | backend-api/src/modules/auth/auth.controller.ts:31-55 | fails iff the credentials do not validate, always with the same error; otherwise the token carries `{ code, sub: id }` of the validated user and the response repeats its id, code, name, store and language, and its roles in order |
| AuthController.LoginFailuresIndistinguishable | backend-api/src/modules/auth/auth.controller.ts:32-39 | an unknown code and a known code with a wrong password get the same error |
| Pipeline.RequestUserGrants | backend-api/src/modules/auth/guards/permissions.guard.ts:44-60 | the guard reads from a loaded graph exactly the permissions the graph carries |
| Pipeline.LoadedGraphGrants | backend-api/src/modules/user/user.service.ts:122-147 | a loaded graph carries a permission iff the store has an active user–role row of the user whose role exists and has an active grant of an existing permission with that name |
| Pipeline.EffectivePermissions | backend-api/src/modules/auth/strategies/jwt.strategy.ts:16-22 | the guard's permission list for a validated token holds a name iff the store grants it to the user at request time |
| Pipeline.AuthorizeReadsCurrentStore | backend-api/src/modules/auth/strategies/jwt.strategy.ts:16-22 | at a declaring endpoint, a token passes iff its code names an active user whom the current store grants one of the declared permissions |
| Pipeline.RemoveRevokesToken | backend-api/src/modules/user/user.service.ts:225-251 | after remove, an earlier token for the user yields no identity and every declaring endpoint refuses it as unauthenticated |
| Pipeline.ClearedRolesResolveEmpty | backend-api/src/modules/user/user.service.ts:264-281 | update with `roleIds: []` and no new code succeeds for every active user, and afterwards the user's code still resolves to the user, now with no role |
| Pipeline.NoRolesNoAccess | backend-api/src/modules/auth/guards/permissions.guard.ts:29-39 | an identity with no role is refused by every declaring endpoint |
| Pipeline.ClearingRolesRevokesAccess | backend-api/src/modules/user/user.service.ts:216-222 | after clearing an active user's roles, an earlier token still authenticates the user but every declaring endpoint refuses it |

## Left out

- Prisma, the database and `async`: the store is a value and each operation is one step over it. Concurrency between requests is not modelled. Neither is the non-atomic create-then-assign sequence, with the partial state it leaves when the second write fails.
- Foreign keys: the model does not require every user–role or role–permission row to point at an existing role or permission. In the database the foreign keys make such a row unreachable. Dropping a dangling reference in the loaders is the model's own choice for a state the source never reaches.
- Foreign keys on writes: a `roleIds` element that names no role succeeds in the model and leaves a dangling row. The database would refuse the `createMany` at user.service.ts:259. In `update` that refusal comes only after the old rows were stamped (user.service.ts:269-279), so the source throws and leaves the user with no active role.
- The store foreign key: `storeId` references a store row (the relation `store: true` at user.service.ts:44 and its use at 292). The database refuses a `create` (user.service.ts:35-42) or an `update` (user.service.ts:183, 197) whose `storeId` names no store. The model accepts any `storeId` and succeeds.
- Integer width: ids are `nat`, unbounded. The database's `Int` columns are 32-bit, so an `id`, `storeId` or role id above 2147483647 makes the query throw. The model treats it as any other id. The service's `id: number` also admits a negative id, which the source answers with `NotFound`. The model's `nat` cannot express that input.
- bcrypt: `Hash` is an ideal stand-in that accepts exactly the password it was made from. The salt is a parameter, and the cost factor 10 plays no part. Collisions are not modelled. Neither is bcrypt's truncation to the first 72 bytes: two passwords that share those bytes both match the same hash.
- JWT signing, the secret and its fallback value, and the 24-hour expiry: a token is an opaque carrier of its claim, and verifying it returns that claim (`JwtStrategy.VerifySign`). Forged, tampered and expired tokens are outside the model.
- Passport and `JwtAuthGuard`: turning a `null` from `validate` into a 401 is not modelled. In `Pipeline.Authorize`, the missing identity reaches the permissions guard. At an endpoint that declares permissions, the guard refuses it. At an endpoint with no declaration, the guard allows it first (permissions.guard.ts:20-22), where `JwtAuthGuard` would have answered 401.
- Request validation by the DTO decorators: the model accepts any input. Only the non-empty `code` of an update enters, as a hypothesis of `UserServiceProofs.UpdatePreservesWellFormed`.
- Store records are not modelled: the relation `store: true` is reduced to `storeId`. Neither is `updatedAt`.
- `findAll` ties: `createdAt desc` leaves equal timestamps in an order the database picks. The model keeps table order among them, and its contract only promises non-increasing timestamps.
- Order of nested relations: the nested includes (user.service.ts:45-56, 73-84, 100-111 and 130-144) have no `orderBy`, so the database picks the order of a user's `userRoles` and of a role's `rolePermissions`. The model lists them in table order. That order, as promised by `UserGraph.LoadUserRolesComplete`, `UserServiceProofs.RespondListsActiveRoles` and the roles of `AuthController.Login`, is the model's own choice.
- The seed script, the controllers other than `login`, and the `getAllAndOverride` metadata reflection, which is a pair of optional lists with the handler's preferred.
- `AuthController.Login`: the roles in the login response carry their active grants, because auth.controller.ts:52 maps the roles of the `findByCode` graph, which includes each role's permissions. The model returns them as they are.
- `UserServiceProofs.UpdatePreservesWellFormed`: stated only for a code that is absent or non-empty. An empty code skips the conflict check (JavaScript truthiness) but is still written. The request validation rejects that input before it reaches the service.
- `Pipeline.ClearedRolesResolveEmpty` and `Pipeline.ClearingRolesRevokesAccess`: stated for an update that does not change the code. When the code changes too, an earlier token carries the old code. What that token resolves to afterwards is not stated.
- Unique keys of the schema: the seed upserts users by `code` and user–role rows by (userId, roleId), which implies unique keys on both. The model keeps neither. So, where the database would refuse the write, the model succeeds in four cases:
  - `create` with the code of a soft-deleted user;
  - `update` to a code that only a soft-deleted user holds: it passes the conflict check (user.service.ts:165-177), but the unique key would refuse the `user.update` at user.service.ts:197;
  - a `roleIds` list with a repeated id;
  - reassigning a role the user held before. The database would refuse this after the old rows were already stamped.
- `null` in a request body: the model's `Option` merges `null` with an absent field, but `@IsOptional` lets `null` through.
  - `storeId: null` clears the store in the source, while the model keeps it.
  - `name`, `code` or `language` set to `null`: these columns are not nullable (the response type at user.dto.ts:103-106 declares them non-null), so the `user.update` at user.service.ts:197 is refused and `update` throws. The model keeps the old value and succeeds.
  - `roleIds: null` passes the `!== undefined` test, stamps every active row of the user, and then throws at `roleIds.length`, leaving the user with no role. The model leaves the roles untouched.

=== FILE: auth_controller.dfy ===
/** `AuthController.login`: check the credentials, sign the claim
    `{ code, sub }`, and answer with the token and a password-free view of
    the user. */
module AuthController {
  import opened Wrappers
  import opened Tables
  import opened UserGraph
  import opened UserService
  import opened JwtStrategy

  const InvalidCredentials: string := "Invalid credentials"

  datatype AuthError = Unauthorized(message: string)

  /** The `user` object of the login response. Each role is the role object
      of the loaded graph, which carries its active grants. */
  datatype LoginUser = LoginUser(
    id: nat,
    name: string,
    code: string,
    storeId: Option<nat>,
    language: string,
    roles: seq<RoleNode>)

  datatype LoginResponse = LoginResponse(accessToken: Token, user: LoginUser)

  /** `userRoles.map(ur => ur.role)` */
  function RoleNodesOf(nodes: seq<UserRoleNode>): (roles: seq<RoleNode>)
    ensures |roles| == |nodes|
  {
    seq(|nodes|, i requires 0 <= i < |nodes| => nodes[i].role)
  }

  function Login(db: Db, code: string, password: string): (r: Result<LoginResponse, AuthError>)
    ensures r.Err? <==> ValidateUser(db, code, password).None?
    ensures r.Err? ==> r.error == Unauthorized(InvalidCredentials)
    ensures r.Ok? ==>
              var g := FindByCode(db, code).value;
              && Compare(password, g.user.passwordHash)
              && Verify(r.value.accessToken) == Some(Claim(code, g.user.id))
              && r.value.user.id == g.user.id && r.value.user.code == code
              && r.value.user.name == g.user.name && r.value.user.storeId == g.user.storeId
              && r.value.user.language == g.user.language
              && |r.value.user.roles| == |g.userRoles|
              && forall i :: 0 <= i < |g.userRoles| ==> r.value.user.roles[i] == g.userRoles[i].role
  {
    match ValidateUser(db, code, password)
    case None => Err(Unauthorized(InvalidCredentials))
    case Some(user) =>
      var token := Sign(Claim(user.code, user.id));
      Ok(LoginResponse(token, LoginUser(user.id, user.name, user.code, user.storeId, user.language,
                                        RoleNodesOf(user.userRoles))))
  }

  /** An unknown code and a wrong password for a known one give the same
      answer, so a caller cannot tell which codes exist. */
  lemma LoginFailuresIndistinguishable(db: Db, unknown: string, known: string, password: string)
    requires forall j :: 0 <= j < |db.users| ==> !(db.users[j].code == unknown && db.users[j].deletedAt.None?)
    requires FindByCode(db, known).Some? && !Compare(password, FindByCode(db, known).value.user.passwordHash)
    ensures Login(db, unknown, password) == Login(db, known, password) == Err(Unauthorized(InvalidCredentials))
  {
  }
}

=== FILE: jwt_strategy.dfy ===
/** `JwtStrategy` and the token it consumes. Signing and verification are
    library cryptography; the token is modelled as an opaque carrier of its
    claim, so verification of a token this process signed returns the claim. */
module JwtStrategy {
  import opened Wrappers
  import opened Tables
  import opened UserGraph

  /** The signed payload `{ code, sub }`. */
  datatype Claim = Claim(code: string, sub: nat)

  datatype Token = Token(claim: Claim)

  function Sign(claim: Claim): Token {
    Token(claim)
  }

  function Verify(token: Token): Option<Claim> {
    Some(token.claim)
  }

  lemma VerifySign(claim: Claim)
    ensures Verify(Sign(claim)) == Some(claim)
  {
  }

  /** `validate(payload)`: re-load the identity by the claim's `code` on every
      request. `None` (no identity attached) when no active user has that
      code; otherwise the user's graph as the store holds it now. */
  function Validate(db: Db, payload: Claim): (r: Option<Graph>)
    ensures r.None? <==> forall j :: 0 <= j < |db.users| ==> !(db.users[j].code == payload.code && db.users[j].deletedAt.None?)
    ensures r.Some? ==> r.value.user.code == payload.code && ActiveGraph(db, r.value)
    ensures r.Some? ==> r.value.userRoles == LoadUserRoles(db, r.value.user.id)
  {
    match FindByCode(db, payload.code)
    case None => None
    case Some(user) => Some(user)
  }

  /** The subject id in the claim plays no part: only the code is looked up. */
  lemma ValidateIgnoresSub(db: Db, code: string, sub1: nat, sub2: nat)
    ensures Validate(db, Claim(code, sub1)) == Validate(db, Claim(code, sub2))
  {
  }
}

=== FILE: permissions_guard.dfy ===
/** `PermissionsGuard`: decides whether a request may reach its handler from
    the permission names declared on the handler or its class and the user
    attached to the request. The user arrives untyped, so every hop of its
    role graph may be missing; a missing hop contributes nothing. */
module PermissionsGuard {
  import opened Wrappers
  import opened Tables

  datatype ReqRolePermission = ReqRolePermission(permission: Option<Permission>)
  datatype ReqRole = ReqRole(rolePermissions: Option<seq<ReqRolePermission>>)
  datatype ReqUserRole = ReqUserRole(role: Option<ReqRole>)
  /** `userRoles` is `None` when the field is missing or not an array. */
  datatype ReqUser = ReqUser(userRoles: Option<seq<ReqUserRole>>)

  datatype Decision = Allow | Forbidden(message: string)

  const NotAuthenticatedMessage: string := "User not authenticated"

  /** The grant at `rp` carries a permission called `name`. */
  predicate GrantNames(rp: ReqRolePermission, name: string) {
    rp.permission.Some? && rp.permission.value.name == name
  }

  /** Some grant under the role of `ur` carries `name`. */
  ghost predicate RoleGrants(ur: ReqUserRole, name: string) {
    && ur.role.Some?
    && ur.role.value.rolePermissions.Some?
    && exists j :: 0 <= j < |ur.role.value.rolePermissions.value|
                   && GrantNames(ur.role.value.rolePermissions.value[j], name)
  }

  /** Some userRole -> role -> rolePermission -> permission path of `u`
      carries `name`. */
  ghost predicate Grants(u: ReqUser, name: string) {
    u.userRoles.Some? && exists i :: 0 <= i < |u.userRoles.value| && RoleGrants(u.userRoles.value[i], name)
  }

  predicate NoDuplicates(xs: seq<string>) {
    forall i, j :: 0 <= i < j < |xs| ==> xs[i] != xs[j]
  }

  /** The names carried by the grants present in `rps`, in order. */
  function NamesOfGrants(rps: seq<ReqRolePermission>): (r: seq<string>)
    ensures forall n :: n in r <==> exists j :: 0 <= j < |rps| && GrantNames(rps[j], n)
  {
    if |rps| == 0 then []
    else
      var rest := NamesOfGrants(rps[1..]);
      assert forall j :: 1 <= j < |rps| ==> rps[j] == rps[1..][j - 1];
      if rps[0].permission.Some? then [rps[0].permission.value.name] + rest else rest
  }

  /** The names under one userRole, or none when its role or grants are missing. */
  function NamesOfRole(ur: ReqUserRole): (r: seq<string>)
    ensures forall n :: n in r <==> RoleGrants(ur, n)
  {
    if ur.role.Some? && ur.role.value.rolePermissions.Some?
    then NamesOfGrants(ur.role.value.rolePermissions.value)
    else []
  }

  function NamesOfUserRoles(urs: seq<ReqUserRole>): (r: seq<string>)
    ensures forall n :: n in r <==> exists i :: 0 <= i < |urs| && RoleGrants(urs[i], n)
  {
    if |urs| == 0 then []
    else
      var rest := NamesOfUserRoles(urs[1..]);
      assert forall i :: 1 <= i < |urs| ==> urs[i] == urs[1..][i - 1];
      NamesOfRole(urs[0]) + rest
  }

  /** `[...new Set(xs)]`: each name once, at its first occurrence. */
  function Dedup(xs: seq<string>): (r: seq<string>)
    ensures forall x :: x in r <==> x in xs
    ensures NoDuplicates(r)
  {
    if |xs| == 0 then []
    else
      var init := xs[..|xs| - 1];
      assert xs == init + [xs[|xs| - 1]];
      var r := Dedup(init);
      if xs[|xs| - 1] in r then r else r + [xs[|xs| - 1]]
  }

  /** `extractPermissionsFromUser`: every permission name some path of the
      user's graph carries, each exactly once. */
  function ExtractPermissions(u: ReqUser): (r: seq<string>)
    ensures NoDuplicates(r)
    ensures forall n :: n in r <==> Grants(u, n)
  {
    if u.userRoles.Some? then Dedup(NamesOfUserRoles(u.userRoles.value)) else []
  }

  /** `Array.prototype.join`. */
  function Join(xs: seq<string>, sep: string): string {
    if |xs| == 0 then ""
    else if |xs| == 1 then xs[0]
    else xs[0] + sep + Join(xs[1..], sep)
  }

  function DeniedMessage(required: seq<string>): string {
    "Access denied. Required permissions: " + Join(required, ", ")
  }

  /** `reflector.getAllAndOverride`: the handler's declaration when present,
      otherwise the class's. */
  function RequiredPermissions(handler: Option<seq<string>>, cls: Option<seq<string>>): Option<seq<string>> {
    if handler.Some? then handler else cls
  }

  /** `requiredPermissions.some(p => userPermissions.includes(p))` */
  function SomeIncluded(required: seq<string>, have: seq<string>): (b: bool)
    ensures b <==> exists i :: 0 <= i < |required| && required[i] in have
  {
    if |required| == 0 then false
    else
      assert forall i :: 1 <= i < |required| ==> required[i] == required[1..][i - 1];
      required[0] in have || SomeIncluded(required[1..], have)
  }

  /** `canActivate`. With no declaration the request passes whoever sent it;
      with one, a missing user is refused; otherwise the request passes iff
      the user holds at least one declared permission (OR, not AND), so an
      empty declaration refuses everybody. A refusal names only the declared
      permissions. */
  function CanActivate(handler: Option<seq<string>>, cls: Option<seq<string>>, user: Option<ReqUser>): (d: Decision)
    ensures RequiredPermissions(handler, cls).None? ==> d == Allow
    ensures RequiredPermissions(handler, cls).Some? && user.None? ==> d == Forbidden(NotAuthenticatedMessage)
    ensures RequiredPermissions(handler, cls).Some? && user.Some? ==>
              var required := RequiredPermissions(handler, cls).value;
              && (d == Allow <==> exists i :: 0 <= i < |required| && Grants(user.value, required[i]))
              && (d != Allow ==> d == Forbidden(DeniedMessage(required)))
    ensures RequiredPermissions(handler, cls) == Some([]) ==> d.Forbidden?
  {
    match RequiredPermissions(handler, cls)
    case None => Allow
    case Some(required) =>
      match user
      case None => Forbidden(NotAuthenticatedMessage)
      case Some(u) =>
        if SomeIncluded(required, ExtractPermissions(u)) then Allow
        else Forbidden(DeniedMessage(required))
  }

  /** Two callers refused at the same endpoint see the same message: the
      refusal reveals nothing about what the caller holds. */
  lemma DenialIndependentOfCaller(handler: Option<seq<string>>, cls: Option<seq<string>>, u1: ReqUser, u2: ReqUser)
    requires CanActivate(handler, cls, Some(u1)).Forbidden?
    requires CanActivate(handler, cls, Some(u2)).Forbidden?
    ensures CanActivate(handler, cls, Some(u1)) == CanActivate(handler, cls, Some(u2))
  {
  }

  /** The user with one role granting exactly the named permissions. */
  function UserHolding(names: seq<string>): ReqUser {
    var grants := seq(|names|, i requires 0 <= i < |names| => ReqRolePermission(Some(Permission(i, names[i], None))));
    ReqUser(Some([ReqUserRole(Some(ReqRole(Some(grants))))]))
  }

  /** OR semantics on a concrete case: an endpoint declaring A and B admits
      a holder of B alone and refuses a holder of C alone. */
  lemma OrSemanticsExample()
    ensures CanActivate(Some(["A", "B"]), None, Some(UserHolding(["B"]))) == Allow
    ensures CanActivate(Some(["A", "B"]), None, Some(UserHolding(["C"]))).Forbidden?
  {
    var b := UserHolding(["B"]);
    assert RoleGrants(b.userRoles.value[0], "B") by {
      assert GrantNames(b.userRoles.value[0].role.value.rolePermissions.value[0], "B");
    }
    var c := UserHolding(["C"]);
    forall i | 0 <= i < 2
      ensures !Grants(c, ["A", "B"][i])
    {
      var urs := c.userRoles.value;
      assert |urs| == 1;
      assert |urs[0].role.value.rolePermissions.value| == 1;
    }
  }
}

=== FILE: pipeline.dfy ===
/** The request pipeline: a bearer token is verified, its claim's code is
    re-resolved against the store as it is now, the graph is attached to the
    request, and the permission guard decides. Nothing about roles or
    permissions is read from the token. */
module Pipeline {
  import opened Wrappers
  import opened Tables
  import opened UserRows
  import opened UserGraph
  import opened UserService
  import opened UserServiceProofs
  import opened PermissionsGuard
  import opened JwtStrategy
  import opened AuthController

  /** The loaded graph in the untyped shape the guard reads. */
  function AsRequestUser(g: Graph): ReqUser {
    ReqUser(Some(seq(|g.userRoles|, i requires 0 <= i < |g.userRoles| => AsRequestUserRole(g.userRoles[i]))))
  }

  function AsRequestUserRole(n: UserRoleNode): ReqUserRole {
    var rps := n.role.rolePermissions;
    ReqUserRole(Some(ReqRole(Some(seq(|rps|, j requires 0 <= j < |rps| => ReqRolePermission(Some(rps[j].permission)))))))
  }

  /** Some node path of the graph carries `name`. */
  ghost predicate GraphGrants(g: Graph, name: string) {
    exists i, j :: 0 <= i < |g.userRoles| && 0 <= j < |g.userRoles[i].role.rolePermissions|
                   && g.userRoles[i].role.rolePermissions[j].permission.name == name
  }

  /** `rp` is an active grant of `roleId` whose permission exists and is
      called `name`. */
  ghost predicate GrantCarries(db: Db, roleId: nat, rp: RolePermission, name: string) {
    && rp in db.rolePermissions && rp.roleId == roleId && rp.deletedAt.None?
    && PermissionById(db.permissions, rp.permissionId).Some?
    && PermissionById(db.permissions, rp.permissionId).value.name == name
  }

  /** The role `roleId` exists and some active grant of it carries `name`. */
  ghost predicate RoleCarries(db: Db, roleId: nat, name: string) {
    RoleById(db.roles, roleId).Some? && exists rp :: GrantCarries(db, roleId, rp, name)
  }

  /** The effective permission set, read off the tables: some active
      UserRole row of the user names a role that carries `name`. */
  ghost predicate StoreGrants(db: Db, userId: nat, name: string) {
    exists ur :: ur in db.userRoles && ur.userId == userId && ur.deletedAt.None? && RoleCarries(db, ur.roleId, name)
  }

  /** The identity the pipeline attaches for a token. */
  function Authenticate(db: Db, token: Token): Option<ReqUser> {
    match Verify(token)
    case None => None
    case Some(claim) =>
      match Validate(db, claim)
      case None => None
      case Some(g) => Some(AsRequestUser(g))
  }

  /** The guard's decision for a request carrying `token` to an endpoint
      with the given declarations. */
  function Authorize(db: Db, token: Token, handler: Option<seq<string>>, cls: Option<seq<string>>): Decision {
    CanActivate(handler, cls, Authenticate(db, token))
  }

  /** Converting to the guard's shape loses no path and invents none. */
  lemma RequestUserGrants(g: Graph, name: string)
    ensures Grants(AsRequestUser(g), name) <==> GraphGrants(g, name)
  {
    var u := AsRequestUser(g);
    if GraphGrants(g, name) {
      var i, j :| 0 <= i < |g.userRoles| && 0 <= j < |g.userRoles[i].role.rolePermissions|
                  && g.userRoles[i].role.rolePermissions[j].permission.name == name;
      assert GrantNames(u.userRoles.value[i].role.value.rolePermissions.value[j], name);
      assert RoleGrants(u.userRoles.value[i], name);
    }
    if Grants(u, name) {
      var i :| 0 <= i < |u.userRoles.value| && RoleGrants(u.userRoles.value[i], name);
      var rps := u.userRoles.value[i].role.value.rolePermissions.value;
      var j :| 0 <= j < |rps| && GrantNames(rps[j], name);
      assert g.userRoles[i].role.rolePermissions[j].permission.name == name;
    }
  }

  lemma LoadedGraphGrantsSound(db: Db, g: Graph, name: string)
    requires g.userRoles == LoadUserRoles(db, g.user.id)
    requires GraphGrants(g, name)
    ensures StoreGrants(db, g.user.id, name)
  {
    var rows := ActiveRowsOf(db.userRoles, g.user.id);
    var i, j :| 0 <= i < |g.userRoles| && 0 <= j < |g.userRoles[i].role.rolePermissions|
                && g.userRoles[i].role.rolePermissions[j].permission.name == name;
    var n := g.userRoles[i];
    assert n.row in rows;
    var grants := ActiveGrantsOf(db.rolePermissions, n.row.roleId);
    assert n.role.rolePermissions == JoinPermissions(grants, db.permissions);
    var m := n.role.rolePermissions[j];
    assert m.row in grants;
    assert GrantCarries(db, n.row.roleId, m.row, name);
    assert RoleCarries(db, n.row.roleId, name);
  }

  /** A grant whose permission exists gets a node in the join. */
  lemma {:induction false} JoinPermissionsHasRow(rows: seq<RolePermission>, permissions: seq<Permission>, rp: RolePermission)
    requires rp in rows
    requires PermissionById(permissions, rp.permissionId).Some?
    ensures exists j :: 0 <= j < |JoinPermissions(rows, permissions)| && JoinPermissions(rows, permissions)[j].row == rp
  {
    JoinPermissionsCons(rows, permissions);
    var r := JoinPermissions(rows, permissions);
    if rows[0] == rp {
      assert r[0].row == rp;
    } else {
      var rest := JoinPermissions(rows[1..], permissions);
      assert rp in rows[1..];
      JoinPermissionsHasRow(rows[1..], permissions, rp);
      var j :| 0 <= j < |rest| && rest[j].row == rp;
      if PermissionById(permissions, rows[0].permissionId).Some? {
        var head := RolePermissionNode(rows[0], PermissionById(permissions, rows[0].permissionId).value);
        ConsIndex(head, rest, j);
        assert r[j + 1].row == rp;
      } else {
        assert r[j].row == rp;
      }
    }
  }

  /** An active grant of a loaded role whose permission exists shows up
      under that role. */
  lemma GrantLoaded(db: Db, roleId: nat, node: RoleNode, rp: RolePermission, name: string)
    requires LoadRole(db, roleId) == Some(node)
    requires GrantCarries(db, roleId, rp, name)
    ensures exists j :: 0 <= j < |node.rolePermissions| && node.rolePermissions[j].permission.name == name
  {
    var grants := ActiveGrantsOf(db.rolePermissions, roleId);
    assert node.rolePermissions == JoinPermissions(grants, db.permissions);
    assert rp in grants;
    JoinPermissionsHasRow(grants, db.permissions, rp);
    var j :| 0 <= j < |node.rolePermissions| && node.rolePermissions[j].row == rp;
  }

  /** A row whose role exists gets a node in the join. */
  lemma {:induction false} JoinRolesHasRow(db: Db, rows: seq<UserRole>, ur: UserRole)
    requires ur in rows
    requires LoadRole(db, ur.roleId).Some?
    ensures exists i :: 0 <= i < |JoinRoles(db, rows)| && JoinRoles(db, rows)[i].row == ur
  {
    JoinRolesCons(db, rows);
    var r := JoinRoles(db, rows);
    if rows[0] == ur {
      assert r[0].row == ur;
    } else {
      var rest := JoinRoles(db, rows[1..]);
      assert ur in rows[1..];
      JoinRolesHasRow(db, rows[1..], ur);
      var i :| 0 <= i < |rest| && rest[i].row == ur;
      if LoadRole(db, rows[0].roleId).Some? {
        var head := UserRoleNode(rows[0], LoadRole(db, rows[0].roleId).value);
        ConsIndex(head, rest, i);
        assert r[i + 1].row == ur;
      } else {
        assert r[i].row == ur;
      }
    }
  }

  /** An active UserRole row of the user whose role exists shows up among
      the loaded nodes. */
  lemma RowLoaded(db: Db, userId: nat, ur: UserRole)
    requires ur in db.userRoles && ur.userId == userId && ur.deletedAt.None?
    requires LoadRole(db, ur.roleId).Some?
    ensures exists i :: 0 <= i < |LoadUserRoles(db, userId)| && LoadUserRoles(db, userId)[i].row == ur
  {
    var rows := ActiveRowsOf(db.userRoles, userId);
    assert ur in rows;
    JoinRolesHasRow(db, rows, ur);
    var i :| 0 <= i < |JoinRoles(db, rows)| && JoinRoles(db, rows)[i].row == ur;
    assert LoadUserRoles(db, userId)[i].row == ur;
  }

  lemma LoadedGraphGrantsComplete(db: Db, g: Graph, name: string)
    requires g.userRoles == LoadUserRoles(db, g.user.id)
    requires StoreGrants(db, g.user.id, name)
    ensures GraphGrants(g, name)
  {
    var ur :| ur in db.userRoles && ur.userId == g.user.id && ur.deletedAt.None? && RoleCarries(db, ur.roleId, name);
    var rp :| GrantCarries(db, ur.roleId, rp, name);
    assert LoadRole(db, ur.roleId).Some?;
    RowLoaded(db, g.user.id, ur);
    var i :| 0 <= i < |g.userRoles| && g.userRoles[i].row == ur;
    var n := g.userRoles[i];
    GrantLoaded(db, ur.roleId, n.role, rp, name);
    var j :| 0 <= j < |n.role.rolePermissions| && n.role.rolePermissions[j].permission.name == name;
  }

  /** A loaded graph carries exactly the store's effective permissions: every
      soft-deleted join row, at either hop, is left out. */
  lemma LoadedGraphGrants(db: Db, g: Graph, name: string)
    requires g.userRoles == LoadUserRoles(db, g.user.id)
    ensures GraphGrants(g, name) <==> StoreGrants(db, g.user.id, name)
  {
    if GraphGrants(g, name) {
      LoadedGraphGrantsSound(db, g, name);
    }
    if StoreGrants(db, g.user.id, name) {
      LoadedGraphGrantsComplete(db, g, name);
    }
  }

  /** The permission names the guard extracts for a token's identity are the
      effective permission set of the user the code names now. */
  lemma EffectivePermissions(db: Db, claim: Claim, name: string)
    requires Validate(db, claim).Some?
    ensures name in ExtractPermissions(AsRequestUser(Validate(db, claim).value))
            <==> StoreGrants(db, Validate(db, claim).value.user.id, name)
  {
    var g := Validate(db, claim).value;
    RequestUserGrants(g, name);
    LoadedGraphGrants(db, g, name);
  }

  /** On an endpoint that declares permissions, a token passes iff its code
      names an active user who, in the store as it is at request time, holds
      one of them. Nothing issued with the token is consulted. */
  lemma AuthorizeReadsCurrentStore(db: Db, claim: Claim, handler: Option<seq<string>>, cls: Option<seq<string>>)
    requires RequiredPermissions(handler, cls).Some?
    ensures var required := RequiredPermissions(handler, cls).value;
            Authorize(db, Sign(claim), handler, cls) == Allow
            <==> Validate(db, claim).Some?
                 && exists i :: 0 <= i < |required| && StoreGrants(db, Validate(db, claim).value.user.id, required[i])
  {
    var required := RequiredPermissions(handler, cls).value;
    if Validate(db, claim).Some? {
      var g := Validate(db, claim).value;
      forall i | 0 <= i < |required|
        ensures Grants(AsRequestUser(g), required[i]) <==> StoreGrants(db, g.user.id, required[i])
      {
        RequestUserGrants(g, required[i]);
        LoadedGraphGrants(db, g, required[i]);
      }
    }
  }

  /** A token issued before the user was removed no longer yields an
      identity, so every endpoint that declares permissions refuses it. */
  lemma RemoveRevokesToken(db: Db, id: nat, now: Instant, sub: nat, handler: Option<seq<string>>, cls: Option<seq<string>>)
    requires WellFormed(db)
    requires Remove(db, id, now).result.Ok?
    requires RequiredPermissions(handler, cls).Some?
    ensures var code := db.users[ActiveById(db.users, id).value].code;
            var after := Remove(db, id, now).db;
            && Validate(after, Claim(code, sub)).None?
            && Authorize(after, Sign(Claim(code, sub)), handler, cls) == Forbidden(NotAuthenticatedMessage)
  {
    RemoveHidesUser(db, id, now);
  }

  /** After `update` with `roleIds: []` and no new code, the user's code
      still resolves to the same user, now with no role at all. */
  lemma ClearedRolesResolveEmpty(db: Db, id: nat, input: UpdateUserInput, salt: nat, now: Instant)
    requires WellFormed(db)
    requires input.roleIds == Some([]) && input.code.None?
    requires ActiveById(db.users, id).Some?
    ensures Update(db, id, input, salt, now).result.Ok?
    ensures var k := ActiveById(db.users, id).value;
            var after := Update(db, id, input, salt, now).db;
            && FindByCode(after, db.users[k].code).Some?
            && FindByCode(after, db.users[k].code).value.user.id == id
            && FindByCode(after, db.users[k].code).value.userRoles == []
  {
    var k := ActiveById(db.users, id).value;
    var after := Update(db, id, input, salt, now).db;
    UpdatePreservesWellFormed(db, id, input, salt, now);
    assert after.users[k].code == db.users[k].code && after.users[k].deletedAt.None?;
    var j := ActiveByCode(after.users, db.users[k].code).value;
    assert j == k;
    assert RoleIdsOf(ActiveRowsOf(after.userRoles, id)) == [];
  }

  /** An identity with no role is refused by every endpoint that declares
      permissions. */
  lemma NoRolesNoAccess(g: Graph, handler: Option<seq<string>>, cls: Option<seq<string>>)
    requires g.userRoles == []
    requires RequiredPermissions(handler, cls).Some?
    ensures CanActivate(handler, cls, Some(AsRequestUser(g))).Forbidden?
  {
    var required := RequiredPermissions(handler, cls).value;
    forall i | 0 <= i < |required|
      ensures !Grants(AsRequestUser(g), required[i])
    {
      RequestUserGrants(g, required[i]);
    }
  }

  /** Clearing a user's roles (`roleIds: []`) takes effect on the next
      request with an old token: the identity still resolves, holds no
      permission, and every endpoint that declares permissions refuses it. */
  lemma ClearingRolesRevokesAccess(db: Db, id: nat, input: UpdateUserInput, salt: nat, now: Instant,
                                   handler: Option<seq<string>>, cls: Option<seq<string>>)
    requires WellFormed(db)
    requires input.roleIds == Some([]) && input.code.None?
    requires ActiveById(db.users, id).Some?
    requires RequiredPermissions(handler, cls).Some?
    ensures var claim := Claim(db.users[ActiveById(db.users, id).value].code, id);
            var after := Update(db, id, input, salt, now).db;
            && Validate(after, claim).Some?
            && Validate(after, claim).value.user.id == id
            && Authorize(after, Sign(claim), handler, cls).Forbidden?
  {
    var claim := Claim(db.users[ActiveById(db.users, id).value].code, id);
    var after := Update(db, id, input, salt, now).db;
    ClearedRolesResolveEmpty(db, id, input, salt, now);
    NoRolesNoAccess(Validate(after, claim).value, handler, cls);
  }

  /** The token a successful login returns resolves, on the next request, to
      the same user with the graph the store holds at that time. */
  lemma LoginTokenResolves(db: Db, code: string, password: string)
    requires Login(db, code, password).Ok?
    ensures var r := Login(db, code, password).value;
            && Authenticate(db, r.accessToken).Some?
            && Validate(db, Verify(r.accessToken).value).value.user.id == r.user.id
  {
  }
}

=== FILE: tables.dfy ===
/** The database tables the services talk to: one sequence of rows per table.
    Rows are never physically removed; soft deletion writes a stamp into
    `deletedAt`, and a row is active exactly when that stamp is `None`. */
module Tables {
  import opened Wrappers

  /** An abstract clock reading, passed in where the source calls `new Date()`. */
  type Instant = nat

  /** A deletion stamp: `None` while the row is active. */
  type Stamp = Option<Instant>

  /** An ideal one-way password hash. The salt stands for bcrypt's random
      salt; `preimage` is never read except by `Compare`, the stand-in for
      bcrypt's comparison. */
  datatype PasswordHash = PasswordHash(salt: nat, preimage: string)

  function Hash(password: string, salt: nat): PasswordHash {
    PasswordHash(salt, password)
  }

  predicate Compare(password: string, hash: PasswordHash) {
    hash.preimage == password
  }

  /** The stand-in's law: a hash accepts the password it was made from,
      whatever the salt, and rejects every other password. bcrypt itself
      only approximates the second half (it reads the first 72 bytes). */
  lemma CompareHash(password: string, candidate: string, salt: nat)
    ensures Compare(candidate, Hash(password, salt)) <==> candidate == password
  {
  }

  datatype User = User(
    id: nat,
    code: string,
    name: string,
    passwordHash: PasswordHash,
    storeId: Option<nat>,
    language: string,
    createdAt: Instant,
    deletedAt: Stamp)

  datatype Role = Role(id: nat, name: string, description: Option<string>)

  datatype Permission = Permission(id: nat, name: string, description: Option<string>)

  /** Join row User <-> Role, with its own deletion stamp. */
  datatype UserRole = UserRole(userId: nat, roleId: nat, deletedAt: Stamp)

  /** Join row Role <-> Permission, with its own deletion stamp. */
  datatype RolePermission = RolePermission(roleId: nat, permissionId: nat, deletedAt: Stamp)

  datatype Db = Db(
    users: seq<User>,
    roles: seq<Role>,
    permissions: seq<Permission>,
    userRoles: seq<UserRole>,
    rolePermissions: seq<RolePermission>)

  /** The index of the first element of `s` satisfying `p` (the store's
      `findFirst`), or `None` when there is none. */
  function FirstIndex<T>(s: seq<T>, p: T -> bool): (r: Option<nat>)
    ensures r.Some? ==> r.value < |s| && p(s[r.value])
    ensures r.Some? ==> forall j :: 0 <= j < r.value ==> !p(s[j])
    ensures r.None? ==> forall j :: 0 <= j < |s| ==> !p(s[j])
  {
    if |s| == 0 then None
    else if p(s[0]) then Some(0)
    else
      match FirstIndex(s[1..], p)
      case None => None
      case Some(k) => Some(k + 1)
  }

  /** `findFirst({ where: { id, deletedAt: null } })` */
  function ActiveById(users: seq<User>, id: nat): (r: Option<nat>)
    ensures r.Some? ==> r.value < |users| && users[r.value].id == id && users[r.value].deletedAt.None?
    ensures r.None? ==> forall j :: 0 <= j < |users| ==> !(users[j].id == id && users[j].deletedAt.None?)
  {
    FirstIndex(users, (u: User) => u.id == id && u.deletedAt.None?)
  }

  /** `findFirst({ where: { code, deletedAt: null } })` */
  function ActiveByCode(users: seq<User>, code: string): (r: Option<nat>)
    ensures r.Some? ==> r.value < |users| && users[r.value].code == code && users[r.value].deletedAt.None?
    ensures r.None? ==> forall j :: 0 <= j < |users| ==> !(users[j].code == code && users[j].deletedAt.None?)
  {
    FirstIndex(users, (u: User) => u.code == code && u.deletedAt.None?)
  }

  /** `findFirst({ where: { code, id: { not: id }, deletedAt: null } })` */
  function ActiveByCodeExcept(users: seq<User>, code: string, id: nat): (r: Option<nat>)
    ensures r.Some? ==> r.value < |users| && users[r.value].code == code
                        && users[r.value].id != id && users[r.value].deletedAt.None?
    ensures r.None? ==> forall j :: 0 <= j < |users| ==>
                          !(users[j].code == code && users[j].id != id && users[j].deletedAt.None?)
  {
    FirstIndex(users, (u: User) => u.code == code && u.id != id && u.deletedAt.None?)
  }

  function RoleById(roles: seq<Role>, id: nat): (r: Option<Role>)
    ensures r.Some? ==> r.value in roles && r.value.id == id
    ensures r.None? ==> forall j :: 0 <= j < |roles| ==> roles[j].id != id
  {
    match FirstIndex(roles, (x: Role) => x.id == id)
    case None => None
    case Some(k) => Some(roles[k])
  }

  function PermissionById(permissions: seq<Permission>, id: nat): (r: Option<Permission>)
    ensures r.Some? ==> r.value in permissions && r.value.id == id
    ensures r.None? ==> forall j :: 0 <= j < |permissions| ==> permissions[j].id != id
  {
    match FirstIndex(permissions, (x: Permission) => x.id == id)
    case None => None
    case Some(k) => Some(permissions[k])
  }

  /** The largest user id in the table, 0 for an empty table. */
  function MaxUserId(users: seq<User>): (m: nat)
    ensures forall j :: 0 <= j < |users| ==> users[j].id <= m
    ensures |users| == 0 || exists j :: 0 <= j < |users| && users[j].id == m
  {
    if |users| == 0 then 0
    else
      var rest := MaxUserId(users[..|users| - 1]);
      var last := users[|users| - 1].id;
      if last >= rest then last else rest
  }

  /** The id the auto-increment column hands to the next inserted user:
      greater than every id already used, since rows are never removed. */
  function NextUserId(users: seq<User>): (id: nat)
    ensures id > 0
    ensures forall j :: 0 <= j < |users| ==> users[j].id < id
  {
    MaxUserId(users) + 1
  }

  /** The primary key `User.id` is unique. */
  ghost predicate UniqueUserIds(users: seq<User>) {
    forall i, j :: 0 <= i < |users| && 0 <= j < |users| && users[i].id == users[j].id ==> i == j
  }

  /** No two active users share a code (the property `create` and `update`
      enforce; soft-deleted rows may repeat a code). */
  ghost predicate UniqueActiveCodes(users: seq<User>) {
    forall i, j ::
      0 <= i < |users| && 0 <= j < |users| && users[i].deletedAt.None? && users[j].deletedAt.None? &&
      users[i].code == users[j].code
      ==> i == j
  }

  /** Every UserRole row belongs to a user id that has already been handed out. */
  ghost predicate OwnersAllocated(db: Db) {
    forall k :: 0 <= k < |db.userRoles| ==> db.userRoles[k].userId < NextUserId(db.users)
  }

  /** The store invariant the user service keeps. */
  ghost predicate WellFormed(db: Db) {
    && UniqueUserIds(db.users)
    && UniqueActiveCodes(db.users)
    && OwnersAllocated(db)
  }
}

=== FILE: user_graph.dfy ===
/** The identity graph `findByCode` loads:
    User -> active UserRole -> Role -> active RolePermission -> Permission,
    and the lighter role summary (`role: { select: { id, name, description } }`)
    the other user queries load. The foreign keys make a join row whose
    target row is missing unreachable; dropping such a row here is the
    model's own choice. */
module UserGraph {
  import opened Wrappers
  import opened Tables
  import opened UserRows

  datatype RolePermissionNode = RolePermissionNode(row: RolePermission, permission: Permission)
  datatype RoleNode = RoleNode(role: Role, rolePermissions: seq<RolePermissionNode>)
  datatype UserRoleNode = UserRoleNode(row: UserRole, role: RoleNode)
  datatype Graph = Graph(user: User, userRoles: seq<UserRoleNode>)

  /** The active RolePermission rows of `roleId`, in table order. */
  function ActiveGrantsOf(rps: seq<RolePermission>, roleId: nat): (r: seq<RolePermission>)
    ensures forall x :: x in r <==> x in rps && x.roleId == roleId && x.deletedAt.None?
  {
    if |rps| == 0 then []
    else
      var rest := ActiveGrantsOf(rps[1..], roleId);
      assert forall x :: x in rps <==> x == rps[0] || x in rps[1..];
      if rps[0].roleId == roleId && rps[0].deletedAt.None? then [rps[0]] + rest else rest
  }

  /** `include: { permission: true }` over the given rows. */
  function JoinPermissions(rows: seq<RolePermission>, permissions: seq<Permission>): (r: seq<RolePermissionNode>)
    ensures forall i :: 0 <= i < |r| ==>
              r[i].row in rows && PermissionById(permissions, r[i].row.permissionId) == Some(r[i].permission)
  {
    if |rows| == 0 then []
    else
      var rest := JoinPermissions(rows[1..], permissions);
      assert forall x :: x in rows <==> x == rows[0] || x in rows[1..];
      match PermissionById(permissions, rows[0].permissionId)
      case None => rest
      case Some(p) => [RolePermissionNode(rows[0], p)] + rest
  }

  /** The role with `roleId` and its active permission grants. */
  function LoadRole(db: Db, roleId: nat): (r: Option<RoleNode>)
    ensures r.None? <==> RoleById(db.roles, roleId).None?
    ensures r.Some? ==> r.value.role in db.roles && r.value.role.id == roleId
    ensures r.Some? ==>
              forall i :: 0 <= i < |r.value.rolePermissions| ==>
                var m := r.value.rolePermissions[i];
                && m.row in db.rolePermissions && m.row.roleId == roleId && m.row.deletedAt.None?
                && PermissionById(db.permissions, m.row.permissionId) == Some(m.permission)
  {
    match RoleById(db.roles, roleId)
    case None => None
    case Some(role) => Some(RoleNode(role, JoinPermissions(ActiveGrantsOf(db.rolePermissions, roleId), db.permissions)))
  }

  /** `include: { role: ... }` over the given UserRole rows. */
  function JoinRoles(db: Db, rows: seq<UserRole>): (r: seq<UserRoleNode>)
    ensures forall i :: 0 <= i < |r| ==> r[i].row in rows && LoadRole(db, r[i].row.roleId) == Some(r[i].role)
  {
    if |rows| == 0 then []
    else
      var rest := JoinRoles(db, rows[1..]);
      assert forall x :: x in rows <==> x == rows[0] || x in rows[1..];
      match LoadRole(db, rows[0].roleId)
      case None => rest
      case Some(node) => [UserRoleNode(rows[0], node)] + rest
  }

  /** Unfolding the permission join one row at a time. */
  lemma JoinPermissionsCons(rows: seq<RolePermission>, permissions: seq<Permission>)
    requires |rows| > 0
    ensures PermissionById(permissions, rows[0].permissionId).Some? ==>
              JoinPermissions(rows, permissions)
              == [RolePermissionNode(rows[0], PermissionById(permissions, rows[0].permissionId).value)]
                 + JoinPermissions(rows[1..], permissions)
    ensures PermissionById(permissions, rows[0].permissionId).None? ==>
              JoinPermissions(rows, permissions) == JoinPermissions(rows[1..], permissions)
  {
  }

  /** Unfolding the role join one row at a time. */
  lemma JoinRolesCons(db: Db, rows: seq<UserRole>)
    requires |rows| > 0
    ensures LoadRole(db, rows[0].roleId).Some? ==>
              JoinRoles(db, rows) == [UserRoleNode(rows[0], LoadRole(db, rows[0].roleId).value)] + JoinRoles(db, rows[1..])
    ensures LoadRole(db, rows[0].roleId).None? ==> JoinRoles(db, rows) == JoinRoles(db, rows[1..])
  {
  }

  /** Indexing past the head of a sequence built by prepending one element. */
  lemma ConsIndex<T>(x: T, s: seq<T>, i: nat)
    requires i < |s|
    ensures ([x] + s)[i + 1] == s[i]
  {
  }

  /** When every grant's permission exists, the join keeps every grant, in order. */
  lemma {:induction false} JoinPermissionsTotal(rows: seq<RolePermission>, permissions: seq<Permission>)
    requires forall k :: 0 <= k < |rows| ==> PermissionById(permissions, rows[k].permissionId).Some?
    ensures |JoinPermissions(rows, permissions)| == |rows|
    ensures forall k :: 0 <= k < |rows| ==> JoinPermissions(rows, permissions)[k].row == rows[k]
  {
    if |rows| > 0 {
      var tail := rows[1..];
      assert forall k :: 0 <= k < |tail| ==> tail[k] == rows[k + 1];
      JoinPermissionsTotal(tail, permissions);
      var rest := JoinPermissions(tail, permissions);
      var head: seq<RolePermissionNode> := [RolePermissionNode(rows[0], PermissionById(permissions, rows[0].permissionId).value)];
      JoinPermissionsCons(rows, permissions);
      assert JoinPermissions(rows, permissions) == head + rest;
      forall k | 0 <= k < |rows|
        ensures (head + rest)[k].row == rows[k]
      {
        if k > 0 {
          ConsIndex(head[0], rest, k - 1);
        }
      }
    }
  }

  /** When every row's role exists, the join keeps every row, in order. */
  lemma {:induction false} JoinRolesTotal(db: Db, rows: seq<UserRole>)
    requires forall k :: 0 <= k < |rows| ==> RoleById(db.roles, rows[k].roleId).Some?
    ensures |JoinRoles(db, rows)| == |rows|
    ensures forall k :: 0 <= k < |rows| ==> JoinRoles(db, rows)[k].row == rows[k]
  {
    if |rows| > 0 {
      var tail := rows[1..];
      assert forall k :: 0 <= k < |tail| ==> tail[k] == rows[k + 1];
      JoinRolesTotal(db, tail);
      var rest := JoinRoles(db, tail);
      var head: seq<UserRoleNode> := [UserRoleNode(rows[0], LoadRole(db, rows[0].roleId).value)];
      JoinRolesCons(db, rows);
      assert JoinRoles(db, rows) == head + rest;
      forall k | 0 <= k < |rows|
        ensures (head + rest)[k].row == rows[k]
      {
        if k > 0 {
          ConsIndex(head[0], rest, k - 1);
        }
      }
    }
  }

  /** The loaded role nodes of `userId`: its active UserRole rows, each with
      its role and that role's active grants. */
  function LoadUserRoles(db: Db, userId: nat): seq<UserRoleNode> {
    JoinRoles(db, ActiveRowsOf(db.userRoles, userId))
  }

  /** The role of each node, without its grants. */
  function RolesOf(nodes: seq<UserRoleNode>): (roles: seq<Role>)
    ensures |roles| == |nodes|
  {
    seq(|nodes|, i requires 0 <= i < |nodes| => nodes[i].role.role)
  }

  /** Every hop of the graph is active: the user, each UserRole (which
      belongs to the user) and each RolePermission (which belongs to the
      role above it). */
  ghost predicate ActiveGraph(db: Db, g: Graph) {
    && g.user in db.users
    && g.user.deletedAt.None?
    && (forall i :: 0 <= i < |g.userRoles| ==>
          && g.userRoles[i].row in db.userRoles
          && g.userRoles[i].row.userId == g.user.id
          && g.userRoles[i].row.deletedAt.None?
          && g.userRoles[i].role.role in db.roles
          && g.userRoles[i].role.role.id == g.userRoles[i].row.roleId)
    && (forall i, j :: 0 <= i < |g.userRoles| && 0 <= j < |g.userRoles[i].role.rolePermissions| ==>
          && g.userRoles[i].role.rolePermissions[j].row in db.rolePermissions
          && g.userRoles[i].role.rolePermissions[j].row.roleId == g.userRoles[i].role.role.id
          && g.userRoles[i].role.rolePermissions[j].row.deletedAt.None?
          && PermissionById(db.permissions, g.userRoles[i].role.rolePermissions[j].row.permissionId)
             == Some(g.userRoles[i].role.rolePermissions[j].permission))
  }

  /** `findByCode`: the active user with `code`, with its graph loaded. */
  function FindByCode(db: Db, code: string): (r: Option<Graph>)
    ensures r.None? <==> forall j :: 0 <= j < |db.users| ==> !(db.users[j].code == code && db.users[j].deletedAt.None?)
    ensures r.Some? ==> r.value.user.code == code && ActiveGraph(db, r.value)
  {
    match ActiveByCode(db.users, code)
    case None => None
    case Some(k) =>
      var u := db.users[k];
      Some(Graph(u, LoadUserRoles(db, u.id)))
  }

  /** Every role a UserRole row names exists: the foreign key the schema keeps. */
  ghost predicate RolesResolve(db: Db) {
    forall k :: 0 <= k < |db.userRoles| ==> RoleById(db.roles, db.userRoles[k].roleId).Some?
  }

  /** When role references resolve, the loaded nodes are exactly the user's
      active rows, one node per row, in table order. */
  lemma LoadUserRolesComplete(db: Db, userId: nat)
    requires RolesResolve(db)
    ensures |LoadUserRoles(db, userId)| == |ActiveRowsOf(db.userRoles, userId)|
    ensures forall k :: 0 <= k < |LoadUserRoles(db, userId)| ==>
              LoadUserRoles(db, userId)[k].row == ActiveRowsOf(db.userRoles, userId)[k]
  {
    var rows := ActiveRowsOf(db.userRoles, userId);
    forall k | 0 <= k < |rows|
      ensures RoleById(db.roles, rows[k].roleId).Some?
    {
      assert rows[k] in rows;
    }
    JoinRolesTotal(db, rows);
  }
}

=== FILE: user_rows.dfy ===
/** Row-level building blocks of the user service: which UserRole rows are
    active for a user, the soft-delete cascade, and the bulk insert of fresh
    rows. Every operation here keeps all existing rows in place. */
module UserRows {
  import opened Wrappers
  import opened Tables

  /** The active UserRole rows of `userId`, in table order
      (`userRoles: { where: { deletedAt: null } }` under one user). */
  function ActiveRowsOf(urs: seq<UserRole>, userId: nat): (r: seq<UserRole>)
    ensures forall x :: x in r <==> x in urs && x.userId == userId && x.deletedAt.None?
    ensures |r| <= |urs|
  {
    if |urs| == 0 then []
    else
      var rest := ActiveRowsOf(urs[1..], userId);
      assert forall x :: x in urs <==> x == urs[0] || x in urs[1..];
      if urs[0].userId == userId && urs[0].deletedAt.None? then [urs[0]] + rest else rest
  }

  /** The role id of each row, in order. */
  function RoleIdsOf(rows: seq<UserRole>): (ids: seq<nat>)
    ensures |ids| == |rows|
  {
    seq(|rows|, i requires 0 <= i < |rows| => rows[i].roleId)
  }

  /** The rows `createMany` inserts for `roleIds`: one active row per element,
      in order. A repeated id gives a repeated row here; the database's unique
      key on (userId, roleId) is not part of this model. */
  function NewRows(userId: nat, roleIds: seq<nat>): (rows: seq<UserRole>)
    ensures |rows| == |roleIds|
    ensures RoleIdsOf(rows) == roleIds
    ensures forall x :: x in rows ==> x.userId == userId && x.deletedAt.None?
  {
    seq(|roleIds|, i requires 0 <= i < |roleIds| => UserRole(userId, roleIds[i], None))
  }

  /** `assignRoles`: append the fresh rows after every existing one. */
  function AssignRoles(urs: seq<UserRole>, userId: nat, roleIds: seq<nat>): (r: seq<UserRole>)
    ensures |r| == |urs| + |roleIds|
    ensures r[..|urs|] == urs
    ensures ActiveRowsOf(r, userId) == ActiveRowsOf(urs, userId) + NewRows(userId, roleIds)
    ensures forall v :: v != userId ==> ActiveRowsOf(r, v) == ActiveRowsOf(urs, v)
  {
    var r := urs + NewRows(userId, roleIds);
    ActiveRowsAppend(urs, NewRows(userId, roleIds), userId);
    ActiveRowsOfNew(userId, roleIds);
    forall v | v != userId
      ensures ActiveRowsOf(r, v) == ActiveRowsOf(urs, v)
    {
      ActiveRowsAppend(urs, NewRows(userId, roleIds), v);
      ActiveRowsOfOthers(userId, roleIds, v);
    }
    r
  }

  /** The soft-delete cascade `updateMany({ where: { userId, deletedAt: null },
      data: { deletedAt: now } })`. */
  function SoftDeleteRolesOf(urs: seq<UserRole>, userId: nat, now: Instant): (r: seq<UserRole>)
    ensures |r| == |urs|
  {
    if |urs| == 0 then []
    else
      var head := if urs[0].userId == userId && urs[0].deletedAt.None?
                  then urs[0].(deletedAt := Some(now)) else urs[0];
      [head] + SoftDeleteRolesOf(urs[1..], userId, now)
  }

  lemma {:induction false} ActiveRowsAppend(a: seq<UserRole>, b: seq<UserRole>, userId: nat)
    ensures ActiveRowsOf(a + b, userId) == ActiveRowsOf(a, userId) + ActiveRowsOf(b, userId)
  {
    if |a| == 0 {
      assert a + b == b;
    } else {
      assert (a + b)[1..] == a[1..] + b;
      ActiveRowsAppend(a[1..], b, userId);
    }
  }

  lemma {:induction false} ActiveRowsOfNew(userId: nat, roleIds: seq<nat>)
    ensures ActiveRowsOf(NewRows(userId, roleIds), userId) == NewRows(userId, roleIds)
  {
    if |roleIds| > 0 {
      assert NewRows(userId, roleIds)[1..] == NewRows(userId, roleIds[1..]);
      ActiveRowsOfNew(userId, roleIds[1..]);
    }
  }

  lemma {:induction false} ActiveRowsOfOthers(userId: nat, roleIds: seq<nat>, other: nat)
    requires other != userId
    ensures ActiveRowsOf(NewRows(userId, roleIds), other) == []
  {
    if |roleIds| > 0 {
      assert NewRows(userId, roleIds)[1..] == NewRows(userId, roleIds[1..]);
      ActiveRowsOfOthers(userId, roleIds[1..], other);
    }
  }

  /** A user none of whose rows exist has no active rows. */
  lemma {:induction false} NoRowsNoActive(urs: seq<UserRole>, userId: nat)
    requires forall k :: 0 <= k < |urs| ==> urs[k].userId != userId
    ensures ActiveRowsOf(urs, userId) == []
  {
    if |urs| > 0 {
      NoRowsNoActive(urs[1..], userId);
    }
  }

  /** The cascade leaves no active row of `userId` behind, leaves every
      other user's active rows as they were, never removes a row, never
      reactivates one, and only ever writes a deletion stamp. */
  lemma {:induction false} SoftDeleteRolesOfSpec(urs: seq<UserRole>, userId: nat, now: Instant)
    ensures ActiveRowsOf(SoftDeleteRolesOf(urs, userId, now), userId) == []
    ensures forall v :: v != userId ==>
              ActiveRowsOf(SoftDeleteRolesOf(urs, userId, now), v) == ActiveRowsOf(urs, v)
    ensures forall k :: 0 <= k < |urs| ==>
              && SoftDeleteRolesOf(urs, userId, now)[k].userId == urs[k].userId
              && SoftDeleteRolesOf(urs, userId, now)[k].roleId == urs[k].roleId
    ensures forall k :: 0 <= k < |urs| && urs[k].userId == userId ==>
              SoftDeleteRolesOf(urs, userId, now)[k].deletedAt.Some?
    ensures forall k :: 0 <= k < |urs| && (urs[k].userId != userId || urs[k].deletedAt.Some?) ==>
              SoftDeleteRolesOf(urs, userId, now)[k] == urs[k]
  {
    if |urs| > 0 {
      SoftDeleteRolesOfSpec(urs[1..], userId, now);
      var r := SoftDeleteRolesOf(urs, userId, now);
      assert r[1..] == SoftDeleteRolesOf(urs[1..], userId, now);
      forall k | 1 <= k < |urs|
        ensures r[k] == SoftDeleteRolesOf(urs[1..], userId, now)[k - 1]
      {
      }
    }
  }
}

=== FILE: user_service.dfy ===
/** `UserService`: the user store operations, each a transformer from a store
    to a result and a new store. Clock readings and bcrypt salts are
    parameters. */
module UserService {
  import opened Wrappers
  import opened Tables
  import opened UserRows
  import opened UserGraph

  const DefaultLanguage: string := "tieng_viet"

  /** The two exceptions the service throws: `NotFoundException('User not
      found')` and `ConflictException('User with this code already exists')`. */
  datatype ServiceError = NotFound | Conflict

  /** An operation's result together with the store it leaves behind. */
  datatype Outcome<+T> = Outcome(result: Result<T, ServiceError>, db: Db)

  datatype CreateUserInput = CreateUserInput(
    name: string,
    code: string,
    password: string,
    storeId: Option<nat>,
    language: Option<string>,
    roleIds: Option<seq<nat>>)

  /** Absent fields (`undefined`) leave the stored value as it is. */
  datatype UpdateUserInput = UpdateUserInput(
    name: Option<string>,
    code: Option<string>,
    password: Option<string>,
    storeId: Option<nat>,
    language: Option<string>,
    roleIds: Option<seq<nat>>)

  /** `formatUserResponse`, without the store object and `updatedAt`. */
  datatype UserResponse = UserResponse(
    id: nat,
    name: string,
    code: string,
    storeId: Option<nat>,
    language: string,
    createdAt: Instant,
    userRoles: seq<Role>)

  /** The user without its password hash (`const { passwordHash, ...result } = user`). */
  datatype SafeUser = SafeUser(
    id: nat,
    code: string,
    name: string,
    storeId: Option<nat>,
    language: string,
    createdAt: Instant,
    deletedAt: Stamp,
    userRoles: seq<UserRoleNode>)

  /** JavaScript truthiness of an optional string: present and non-empty. */
  predicate Truthy(s: Option<string>) {
    s.Some? && s.value != ""
  }

  function FormatUserResponse(u: User, roles: seq<Role>): UserResponse {
    UserResponse(u.id, u.name, u.code, u.storeId, u.language, u.createdAt, roles)
  }

  /** The response for `u` with the roles of its active UserRole rows in `db`. */
  function Respond(db: Db, u: User): (r: UserResponse)
    ensures r.id == u.id && r.name == u.name && r.code == u.code
    ensures r.storeId == u.storeId && r.language == u.language && r.createdAt == u.createdAt
  {
    FormatUserResponse(u, RolesOf(LoadUserRoles(db, u.id)))
  }

  /** `createUserDto.language || 'tieng_viet'` */
  function LanguageOrDefault(language: Option<string>): string {
    if Truthy(language) then language.value else DefaultLanguage
  }

  /** `create`: refuse a code an active user holds, insert the user, then
      insert one UserRole row per element of a non-empty `roleIds`. The
      response is built from the user as loaded before the roles were added. */
  function Create(db: Db, input: CreateUserInput, salt: nat, now: Instant): (o: Outcome<UserResponse>)
    ensures o.result.Err? <==> exists j :: 0 <= j < |db.users| && db.users[j].code == input.code && db.users[j].deletedAt.None?
    ensures o.result.Err? ==> o.result.error == Conflict && o.db == db
    ensures o.result.Ok? ==>
              && |o.db.users| == |db.users| + 1
              && o.db.users[..|db.users|] == db.users
              && o.db.roles == db.roles && o.db.permissions == db.permissions
              && o.db.rolePermissions == db.rolePermissions
              && |o.db.userRoles| >= |db.userRoles|
              && o.db.userRoles[..|db.userRoles|] == db.userRoles
    ensures o.result.Ok? ==>
              var u := o.db.users[|db.users|];
              && u.id == NextUserId(db.users) && u.id == o.result.value.id
              && o.result.value.name == u.name && o.result.value.code == u.code
              && o.result.value.storeId == u.storeId && o.result.value.language == u.language
              && o.result.value.createdAt == u.createdAt
              && u.code == input.code && u.name == input.name && u.storeId == input.storeId
              && u.deletedAt.None? && u.createdAt == now
              && Compare(input.password, u.passwordHash)
              && u.language == (if Truthy(input.language) then input.language.value else DefaultLanguage)
  {
    match ActiveByCode(db.users, input.code)
    case Some(_) => Outcome(Err(Conflict), db)
    case None =>
      var id := NextUserId(db.users);
      var u := User(id, input.code, input.name, Hash(input.password, salt), input.storeId,
                    LanguageOrDefault(input.language), now, None);
      var db1 := db.(users := db.users + [u]);
      var loaded := Respond(db1, u);
      var db2 := if input.roleIds.Some? && |input.roleIds.value| > 0
                 then db1.(userRoles := AssignRoles(db1.userRoles, id, input.roleIds.value))
                 else db1;
      assert db2.users[..|db.users|] == db.users;
      Outcome(Ok(loaded), db2)
  }

  /** The stored row after applying an update: each present field overwrites,
      and the password is rehashed only when a non-empty one is given. */
  function ApplyUpdate(u: User, input: UpdateUserInput, salt: nat): (r: User)
    ensures r.id == u.id && r.createdAt == u.createdAt && r.deletedAt == u.deletedAt
    ensures input.name.Some? ==> r.name == input.name.value
    ensures input.name.None? ==> r.name == u.name
    ensures input.code.Some? ==> r.code == input.code.value
    ensures input.code.None? ==> r.code == u.code
    ensures input.storeId.Some? ==> r.storeId == input.storeId
    ensures input.storeId.None? ==> r.storeId == u.storeId
    ensures input.language.Some? ==> r.language == input.language.value
    ensures input.language.None? ==> r.language == u.language
    ensures Truthy(input.password) ==> Compare(input.password.value, r.passwordHash)
    ensures !Truthy(input.password) ==> r.passwordHash == u.passwordHash
  {
    u.(name := input.name.GetOr(u.name),
       code := input.code.GetOr(u.code),
       storeId := if input.storeId.Some? then input.storeId else u.storeId,
       language := input.language.GetOr(u.language),
       passwordHash := if Truthy(input.password) then Hash(input.password.value, salt) else u.passwordHash)
  }

  /** `updateUserRoles`: soft-delete every active row of the user, then
      append fresh rows for a non-empty `roleIds`. */
  function UpdateUserRoles(db: Db, userId: nat, roleIds: seq<nat>, now: Instant): (r: Db)
    ensures r == db.(userRoles := r.userRoles)
    ensures RoleIdsOf(ActiveRowsOf(r.userRoles, userId)) == roleIds
    ensures forall v :: v != userId ==> ActiveRowsOf(r.userRoles, v) == ActiveRowsOf(db.userRoles, v)
    ensures |r.userRoles| == |db.userRoles| + |roleIds|
    ensures r.userRoles[|db.userRoles|..] == NewRows(userId, roleIds)
    ensures forall k :: 0 <= k < |db.userRoles| ==>
              r.userRoles[k].userId == db.userRoles[k].userId && r.userRoles[k].roleId == db.userRoles[k].roleId
    ensures forall k :: 0 <= k < |db.userRoles| && db.userRoles[k].userId == userId ==>
              r.userRoles[k].deletedAt.Some?
    ensures forall k :: 0 <= k < |db.userRoles| && db.userRoles[k].deletedAt.Some? ==>
              r.userRoles[k] == db.userRoles[k]
  {
    var cleared := SoftDeleteRolesOf(db.userRoles, userId, now);
    SoftDeleteRolesOfSpec(db.userRoles, userId, now);
    var urs := if |roleIds| > 0 then AssignRoles(cleared, userId, roleIds) else cleared;
    assert |roleIds| == 0 ==> NewRows(userId, roleIds) == [];
    assert urs[|cleared|..] == NewRows(userId, roleIds);
    assert ActiveRowsOf(urs, userId) == NewRows(userId, roleIds);
    assert forall k :: 0 <= k < |cleared| ==> urs[k] == cleared[k];
    db.(userRoles := urs)
  }

  /** `update`: refuse a missing user, refuse a changed code another active
      user holds, write the row, then reassign roles when `roleIds` is given.
      The response is built from the user as loaded before reassignment. */
  function Update(db: Db, id: nat, input: UpdateUserInput, salt: nat, now: Instant): (o: Outcome<UserResponse>)
    ensures ActiveById(db.users, id).None? ==> o == Outcome(Err(NotFound), db)
    ensures ActiveById(db.users, id).Some? && o.result.Err? ==> o.result == Err(Conflict)
    ensures ActiveById(db.users, id).Some? ==>
              var k := ActiveById(db.users, id).value;
              && (o.result == Err(Conflict) <==>
                    && Truthy(input.code) && input.code.value != db.users[k].code
                    && exists j :: 0 <= j < |db.users| && db.users[j].code == input.code.value
                                   && db.users[j].id != id && db.users[j].deletedAt.None?)
              && (o.result.Ok? ==>
                    && |o.db.users| == |db.users|
                    && (forall j :: 0 <= j < |db.users| && j != k ==> o.db.users[j] == db.users[j])
                    && o.db.users[k] == ApplyUpdate(db.users[k], input, salt)
                    && (input.roleIds.Some? ==> o.db.userRoles == UpdateUserRoles(db, id, input.roleIds.value, now).userRoles)
                    && (Truthy(input.password) ==> Compare(input.password.value, o.db.users[k].passwordHash))
                    && (!Truthy(input.password) ==> o.db.users[k].passwordHash == db.users[k].passwordHash)
                    && (input.code.Some? ==> o.db.users[k].code == input.code.value)
                    && (input.code.None? ==> o.db.users[k].code == db.users[k].code)
                    && o.result.value.id == id
                    && o.result.value.name == o.db.users[k].name && o.result.value.code == o.db.users[k].code
                    && o.result.value.storeId == o.db.users[k].storeId
                    && o.result.value.language == o.db.users[k].language
                    && o.result.value.createdAt == o.db.users[k].createdAt)
    ensures o.result.Err? ==> o.db == db
    ensures input.roleIds.None? ==> o.db.userRoles == db.userRoles
    ensures o.db.roles == db.roles && o.db.permissions == db.permissions && o.db.rolePermissions == db.rolePermissions
  {
    match ActiveById(db.users, id)
    case None => Outcome(Err(NotFound), db)
    case Some(k) =>
      var existing := db.users[k];
      if Truthy(input.code) && input.code.value != existing.code
         && ActiveByCodeExcept(db.users, input.code.value, id).Some?
      then Outcome(Err(Conflict), db)
      else
        var u := ApplyUpdate(existing, input, salt);
        var db1 := db.(users := db.users[k := u]);
        var loaded := Respond(db1, u);
        var db2 := if input.roleIds.Some? then UpdateUserRoles(db1, id, input.roleIds.value, now) else db1;
        Outcome(Ok(loaded), db2)
  }

  /** `remove`: soft-delete the user and cascade to its active UserRole rows. */
  function Remove(db: Db, id: nat, now: Instant): (o: Outcome<()>)
    ensures ActiveById(db.users, id).None? ==> o == Outcome(Err(NotFound), db)
    ensures ActiveById(db.users, id).Some? ==>
              var k := ActiveById(db.users, id).value;
              && o.result == Ok(())
              && |o.db.users| == |db.users| && |o.db.userRoles| == |db.userRoles|
              && o.db.users[k] == db.users[k].(deletedAt := Some(now))
              && (forall j :: 0 <= j < |db.users| && j != k ==> o.db.users[j] == db.users[j])
              && ActiveRowsOf(o.db.userRoles, id) == []
              && (forall v :: v != id ==> ActiveRowsOf(o.db.userRoles, v) == ActiveRowsOf(db.userRoles, v))
              && (forall j :: 0 <= j < |db.userRoles| && db.userRoles[j].deletedAt.Some? ==> o.db.userRoles[j] == db.userRoles[j])
              && (forall j :: 0 <= j < |db.userRoles| ==>
                    o.db.userRoles[j].userId == db.userRoles[j].userId && o.db.userRoles[j].roleId == db.userRoles[j].roleId)
    ensures o.db.roles == db.roles && o.db.permissions == db.permissions && o.db.rolePermissions == db.rolePermissions
  {
    match ActiveById(db.users, id)
    case None => Outcome(Err(NotFound), db)
    case Some(k) =>
      SoftDeleteRolesOfSpec(db.userRoles, id, now);
      Outcome(Ok(()), db.(users := db.users[k := db.users[k].(deletedAt := Some(now))],
                          userRoles := SoftDeleteRolesOf(db.userRoles, id, now)))
  }

  /** `findOne`: the active user with `id`, or NotFound. */
  function FindOne(db: Db, id: nat): (r: Result<UserResponse, ServiceError>)
    ensures r.Err? <==> forall j :: 0 <= j < |db.users| ==> !(db.users[j].id == id && db.users[j].deletedAt.None?)
    ensures r.Err? ==> r.error == NotFound
    ensures r.Ok? ==> r.value.id == id && exists j :: 0 <= j < |db.users| && db.users[j].deletedAt.None? && r.value == Respond(db, db.users[j])
  {
    match ActiveById(db.users, id)
    case None => Err(NotFound)
    case Some(k) => Ok(Respond(db, db.users[k]))
  }

  /** The active users, in table order. */
  function ActiveUsers(users: seq<User>): (r: seq<User>)
    ensures forall u :: u in r <==> u in users && u.deletedAt.None?
  {
    if |users| == 0 then []
    else
      var rest := ActiveUsers(users[1..]);
      assert forall x :: x in users <==> x == users[0] || x in users[1..];
      if users[0].deletedAt.None? then [users[0]] + rest else rest
  }

  ghost predicate NewestFirst(us: seq<User>) {
    forall i, j :: 0 <= i < j < |us| ==> us[i].createdAt >= us[j].createdAt
  }

  /** A user no older than every element of a newest-first list may go in front. */
  lemma PrependNewest(x: User, us: seq<User>)
    requires NewestFirst(us)
    requires forall y :: y in us ==> y.createdAt <= x.createdAt
    ensures NewestFirst([x] + us)
  {
    var r := [x] + us;
    forall i, j | 0 <= i < j < |r|
      ensures r[i].createdAt >= r[j].createdAt
    {
      assert r[j] == us[j - 1];
      if i > 0 {
        assert r[i] == us[i - 1];
      }
    }
  }

  /** The head of a newest-first list is no older than any of its elements. */
  lemma NewestFirstHead(us: seq<User>)
    requires NewestFirst(us)
    ensures |us| > 0 ==> forall y :: y in us ==> y.createdAt <= us[0].createdAt
  {
    forall y | y in us
      ensures y.createdAt <= us[0].createdAt
    {
      var j :| 0 <= j < |us| && us[j] == y;
    }
  }

  /** A bound on every element of `us` and on `u` bounds every element of a
      list holding exactly those. */
  lemma BoundOfInsert(u: User, us: seq<User>, rest: seq<User>, bound: Instant)
    requires multiset(rest) == multiset(us) + multiset{u}
    requires u.createdAt <= bound
    requires forall y :: y in us ==> y.createdAt <= bound
    ensures forall x :: x in rest ==> x.createdAt <= bound
  {
    forall x | x in rest
      ensures x.createdAt <= bound
    {
      assert x in multiset(rest);
      if x != u {
        assert x in multiset(us);
      }
    }
  }

  /** Insert `u` before the first element that is not newer than it. */
  function InsertNewestFirst(u: User, us: seq<User>): (r: seq<User>)
    requires NewestFirst(us)
    ensures multiset(r) == multiset(us) + multiset{u}
    ensures NewestFirst(r)
  {
    if |us| == 0 || u.createdAt >= us[0].createdAt then
      NewestFirstHead(us);
      PrependNewest(u, us);
      [u] + us
    else
      var tail := us[1..];
      assert us == [us[0]] + tail;
      NewestFirstHead(us);
      var rest := InsertNewestFirst(u, tail);
      assert multiset(us) == multiset{us[0]} + multiset(tail);
      assert multiset([us[0]] + rest) == multiset{us[0]} + multiset(rest);
      BoundOfInsert(u, tail, rest, us[0].createdAt);
      PrependNewest(us[0], rest);
      [us[0]] + rest
  }


  /** `orderBy: { createdAt: 'desc' }`; users created at the same instant keep
      their table order. */
  function SortNewestFirst(us: seq<User>): (r: seq<User>)
    ensures multiset(r) == multiset(us)
    ensures NewestFirst(r)
  {
    if |us| == 0 then []
    else
      assert us == [us[0]] + us[1..];
      InsertNewestFirst(us[0], SortNewestFirst(us[1..]))
  }

  /** The rows `findAll` loads: every active user, newest first. */
  function LoadAll(db: Db): (r: seq<User>)
    ensures multiset(r) == multiset(ActiveUsers(db.users))
    ensures |r| == |ActiveUsers(db.users)|
    ensures forall u :: u in r <==> u in db.users && u.deletedAt.None?
    ensures NewestFirst(r)
  {
    var r := SortNewestFirst(ActiveUsers(db.users));
    assert |r| == |multiset(r)|;
    assert forall u :: u in r <==> u in multiset(ActiveUsers(db.users));
    r
  }

  /** The formatted response of each loaded user, in the same order. */
  function RespondEach(db: Db, users: seq<User>): (r: seq<UserResponse>)
    ensures |r| == |users|
    ensures forall i :: 0 <= i < |r| ==> r[i] == Respond(db, users[i])
  {
    if |users| == 0 then [] else [Respond(db, users[0])] + RespondEach(db, users[1..])
  }

  /** `findAll`: one response per active user, newest first. */
  function FindAll(db: Db): (r: seq<UserResponse>)
    ensures |r| == |ActiveUsers(db.users)| == |LoadAll(db)|
    ensures forall i :: 0 <= i < |r| ==> r[i] == Respond(db, LoadAll(db)[i])
    ensures forall i, j :: 0 <= i < j < |r| ==> r[i].createdAt >= r[j].createdAt
    ensures forall i :: 0 <= i < |r| ==> exists u :: u in db.users && u.deletedAt.None? && r[i] == Respond(db, u)
  {
    var users := LoadAll(db);
    var r := RespondEach(db, users);
    forall i | 0 <= i < |r|
      ensures exists u :: u in db.users && u.deletedAt.None? && r[i] == Respond(db, u)
    {
      var u := users[i];
      assert u in users;
    }
    forall i, j | 0 <= i < j < |r|
      ensures r[i].createdAt >= r[j].createdAt
    {
      assert r[i].createdAt == users[i].createdAt && r[j].createdAt == users[j].createdAt;
    }
    r
  }

  /** `validateUser`: the loaded identity without its hash when the code names
      an active user whose hash accepts the password; `None` otherwise. */
  function ValidateUser(db: Db, code: string, password: string): (r: Option<SafeUser>)
    ensures r.Some? <==> FindByCode(db, code).Some? && Compare(password, FindByCode(db, code).value.user.passwordHash)
    ensures r.Some? ==>
              var g := FindByCode(db, code).value;
              && r.value.id == g.user.id && r.value.code == code && r.value.name == g.user.name
              && r.value.storeId == g.user.storeId && r.value.language == g.user.language
              && r.value.createdAt == g.user.createdAt
              && r.value.deletedAt.None? && r.value.userRoles == g.userRoles
  {
    match FindByCode(db, code)
    case None => None
    case Some(g) =>
      if Compare(password, g.user.passwordHash) then
        var u := g.user;
        Some(SafeUser(u.id, u.code, u.name, u.storeId, u.language, u.createdAt, u.deletedAt, g.userRoles))
      else None
  }
}

=== FILE: user_service_proofs.dfy ===
/** Properties of the user service that relate several operations or the
    store before and after one: the store invariant is kept, role
    reassignment replaces exactly, and removal hides the user. */
module UserServiceProofs {
  import opened Wrappers
  import opened Tables
  import opened UserRows
  import opened UserGraph
  import opened UserService

  /** The graph below a user depends only on the join and reference tables. */
  lemma {:induction false} JoinRolesFrame(db1: Db, db2: Db, rows: seq<UserRole>)
    requires db1.roles == db2.roles && db1.permissions == db2.permissions
    requires db1.rolePermissions == db2.rolePermissions
    ensures JoinRoles(db1, rows) == JoinRoles(db2, rows)
  {
    if |rows| > 0 {
      JoinRolesFrame(db1, db2, rows[1..]);
      assert LoadRole(db1, rows[0].roleId) == LoadRole(db2, rows[0].roleId);
    }
  }

  lemma {:induction false} MaxUserIdAppend(users: seq<User>, u: User)
    ensures MaxUserId(users + [u]) == if u.id >= MaxUserId(users) then u.id else MaxUserId(users)
  {
    assert (users + [u])[..|users|] == users;
  }

  lemma {:induction false} MaxUserIdSameIds(a: seq<User>, b: seq<User>)
    requires |a| == |b|
    requires forall i :: 0 <= i < |a| ==> a[i].id == b[i].id
    ensures MaxUserId(a) == MaxUserId(b)
  {
    if |a| > 0 {
      MaxUserIdSameIds(a[..|a| - 1], b[..|b| - 1]);
    }
  }

  /** Appending a user with a fresh id and a code no active user holds keeps
      ids and active codes unique. */
  lemma AppendFreshUser(users: seq<User>, u: User)
    requires UniqueUserIds(users) && UniqueActiveCodes(users)
    requires u.id >= NextUserId(users)
    requires forall j :: 0 <= j < |users| ==> !(users[j].code == u.code && users[j].deletedAt.None?)
    ensures UniqueUserIds(users + [u]) && UniqueActiveCodes(users + [u])
  {
    var r := users + [u];
    var n := |users|;
    forall i, j | 0 <= i < |r| && 0 <= j < |r| && r[i].id == r[j].id
      ensures i == j
    {
      if i < n && j < n {
        assert r[i] == users[i] && r[j] == users[j];
      }
    }
    forall i, j | 0 <= i < |r| && 0 <= j < |r| && r[i].deletedAt.None? && r[j].deletedAt.None? && r[i].code == r[j].code
      ensures i == j
    {
      if i < n && j < n {
        assert r[i] == users[i] && r[j] == users[j];
      }
    }
  }

  /** Appending a user with a fresh id and rows owned by it keeps every row
      owner allocated. */
  lemma AppendOwnedRows(db: Db, u: User, rs: seq<nat>)
    requires OwnersAllocated(db)
    requires u.id >= NextUserId(db.users)
    ensures OwnersAllocated(db.(users := db.users + [u], userRoles := db.userRoles + NewRows(u.id, rs)))
  {
    var db2 := db.(users := db.users + [u], userRoles := db.userRoles + NewRows(u.id, rs));
    MaxUserIdAppend(db.users, u);
    forall k | 0 <= k < |db2.userRoles|
      ensures db2.userRoles[k].userId < NextUserId(db2.users)
    {
      if k >= |db.userRoles| {
        assert db2.userRoles[k] in NewRows(u.id, rs);
      }
    }
  }

  /** Create keeps ids unique, active codes unique and row owners allocated. */
  lemma CreatePreservesWellFormed(db: Db, input: CreateUserInput, salt: nat, now: Instant)
    requires WellFormed(db)
    ensures WellFormed(Create(db, input, salt, now).db)
  {
    var o := Create(db, input, salt, now);
    if o.result.Ok? {
      var u := o.db.users[|db.users|];
      assert o.db.users == db.users + [u];
      AppendFreshUser(db.users, u);
      var rs := if input.roleIds.Some? && |input.roleIds.value| > 0 then input.roleIds.value else [];
      assert o.db == db.(users := db.users + [u], userRoles := db.userRoles + NewRows(u.id, rs));
      AppendOwnedRows(db, u, rs);
    }
  }

  /** A created user starts with exactly one active UserRole row per
      requested role id, in order (none when `roleIds` is absent or
      empty; a repeated id stays repeated, since the unique key on
      (userId, roleId) is not modelled), while the response, taken before the
      rows were inserted, lists no roles. No other user's rows change. */
  lemma CreateAssignsRoles(db: Db, input: CreateUserInput, salt: nat, now: Instant)
    requires OwnersAllocated(db)
    requires Create(db, input, salt, now).result.Ok?
    ensures var o := Create(db, input, salt, now);
            var id := o.result.value.id;
            && RoleIdsOf(ActiveRowsOf(o.db.userRoles, id)) == input.roleIds.GetOr([])
            && o.result.value.userRoles == []
            && forall v :: v != id ==> ActiveRowsOf(o.db.userRoles, v) == ActiveRowsOf(db.userRoles, v)
  {
    var id := NextUserId(db.users);
    NoRowsNoActive(db.userRoles, id);
    CreateWritesRows(db, input, salt, now);
    RowsOfNewUser(db.userRoles, id, input.roleIds);
  }

  /** The rows `create` leaves behind for a user who had none: exactly the
      requested role ids are active for it, and no other user's rows change. */
  lemma RowsOfNewUser(urs: seq<UserRole>, id: nat, roleIds: Option<seq<nat>>)
    requires ActiveRowsOf(urs, id) == []
    ensures var rows := if roleIds.Some? && |roleIds.value| > 0 then AssignRoles(urs, id, roleIds.value) else urs;
            && RoleIdsOf(ActiveRowsOf(rows, id)) == roleIds.GetOr([])
            && forall v :: v != id ==> ActiveRowsOf(rows, v) == ActiveRowsOf(urs, v)
  {
    if roleIds.Some? && |roleIds.value| > 0 {
      assert ActiveRowsOf(AssignRoles(urs, id, roleIds.value), id) == NewRows(id, roleIds.value);
    }
  }

  /** The rows `create` writes and the roles its response lists, stated
      without the rest of the outcome. */
  lemma CreateWritesRows(db: Db, input: CreateUserInput, salt: nat, now: Instant)
    requires Create(db, input, salt, now).result.Ok?
    requires ActiveRowsOf(db.userRoles, NextUserId(db.users)) == []
    ensures var o := Create(db, input, salt, now);
            && o.db.userRoles == (if input.roleIds.Some? && |input.roleIds.value| > 0
                                  then AssignRoles(db.userRoles, NextUserId(db.users), input.roleIds.value)
                                  else db.userRoles)
            && o.result.value.userRoles == []
  {
    var o := Create(db, input, salt, now);
    var id := NextUserId(db.users);
    assert LoadUserRoles(db.(users := o.db.users), id) == [];
  }

  /** Rewriting one user row in place, with its id and stamp kept and a code
      that is either its own or held by no other active row, keeps ids and
      active codes unique. */
  lemma ReplaceUser(users: seq<User>, k: nat, u: User)
    requires k < |users|
    requires UniqueUserIds(users) && UniqueActiveCodes(users)
    requires u.id == users[k].id && u.deletedAt == users[k].deletedAt
    requires u.code == users[k].code
             || forall j :: 0 <= j < |users| && j != k ==> !(users[j].code == u.code && users[j].deletedAt.None?)
    ensures UniqueUserIds(users[k := u]) && UniqueActiveCodes(users[k := u])
  {
  }

  /** Reassigning a user's roles keeps every row owned by an allocated id. */
  lemma ReassignKeepsOwners(db: Db, userId: nat, roleIds: seq<nat>, now: Instant)
    requires OwnersAllocated(db)
    requires userId < NextUserId(db.users)
    ensures OwnersAllocated(UpdateUserRoles(db, userId, roleIds, now))
  {
    var r := UpdateUserRoles(db, userId, roleIds, now);
    var cleared := SoftDeleteRolesOf(db.userRoles, userId, now);
    SoftDeleteRolesOfSpec(db.userRoles, userId, now);
    assert r.userRoles == cleared + NewRows(userId, roleIds);
    forall m | 0 <= m < |r.userRoles|
      ensures r.userRoles[m].userId < NextUserId(r.users)
    {
      if m >= |cleared| {
        assert r.userRoles[m] in NewRows(userId, roleIds);
      } else {
        assert r.userRoles[m] == cleared[m];
      }
    }
  }

  /** Update keeps the invariant, given a non-empty code when one is supplied
      (the request validator's guarantee). */
  lemma UpdatePreservesWellFormed(db: Db, id: nat, input: UpdateUserInput, salt: nat, now: Instant)
    requires WellFormed(db)
    requires input.code != Some("")
    ensures WellFormed(Update(db, id, input, salt, now).db)
  {
    if Update(db, id, input, salt, now).result.Ok? {
      UpdateKeepsUserKeys(db, id, input, salt, now);
      UpdateKeepsOwners(db, id, input, salt, now);
    }
  }

  /** A successful update keeps every user-role row owned by an allocated id:
      the user ids are unchanged and the new rows belong to an existing user. */
  lemma UpdateKeepsOwners(db: Db, id: nat, input: UpdateUserInput, salt: nat, now: Instant)
    requires OwnersAllocated(db)
    requires Update(db, id, input, salt, now).result.Ok?
    ensures OwnersAllocated(Update(db, id, input, salt, now).db)
  {
    var o := Update(db, id, input, salt, now);
    MaxUserIdSameIds(db.users, o.db.users);
    if input.roleIds.Some? {
      ReassignKeepsOwners(db, id, input.roleIds.value, now);
      assert OwnersAllocated(UpdateUserRoles(db, id, input.roleIds.value, now));
    }
  }

  /** A successful update keeps ids and active codes unique: the new code is
      either the old one or, having passed the conflict check, held by no
      other active user. */
  lemma UpdateKeepsUserKeys(db: Db, id: nat, input: UpdateUserInput, salt: nat, now: Instant)
    requires UniqueUserIds(db.users) && UniqueActiveCodes(db.users)
    requires input.code != Some("")
    requires Update(db, id, input, salt, now).result.Ok?
    ensures UniqueUserIds(Update(db, id, input, salt, now).db.users)
    ensures UniqueActiveCodes(Update(db, id, input, salt, now).db.users)
  {
    var o := Update(db, id, input, salt, now);
    var k := ActiveById(db.users, id).value;
    var u := ApplyUpdate(db.users[k], input, salt);
    assert o.db.users == db.users[k := u];
    if u.code != db.users[k].code {
      forall j | 0 <= j < |db.users| && j != k
        ensures !(db.users[j].code == u.code && db.users[j].deletedAt.None?)
      {
        assert db.users[j].id != id;
      }
    }
    ReplaceUser(db.users, k, u);
  }

  /** The update response lists the roles the user held before the update,
      even when `roleIds` reassigns them; afterwards the active rows of the
      user carry exactly the requested role ids. */
  lemma UpdateRespondsWithPriorRoles(db: Db, id: nat, input: UpdateUserInput, salt: nat, now: Instant)
    requires Update(db, id, input, salt, now).result.Ok?
    ensures Update(db, id, input, salt, now).result.value.userRoles == RolesOf(LoadUserRoles(db, id))
    ensures input.roleIds.Some? ==>
              RoleIdsOf(ActiveRowsOf(Update(db, id, input, salt, now).db.userRoles, id)) == input.roleIds.value
  {
    var k := ActiveById(db.users, id).value;
    var db1 := db.(users := db.users[k := ApplyUpdate(db.users[k], input, salt)]);
    JoinRolesFrame(db1, db, ActiveRowsOf(db.userRoles, id));
  }

  /** Remove keeps the invariant. */
  lemma RemovePreservesWellFormed(db: Db, id: nat, now: Instant)
    requires WellFormed(db)
    ensures WellFormed(Remove(db, id, now).db)
  {
    var o := Remove(db, id, now);
    if o.result.Ok? {
      var k := ActiveById(db.users, id).value;
      assert o.db.users == db.users[k := db.users[k].(deletedAt := Some(now))];
      StampUser(db.users, k, now);
      MaxUserIdSameIds(db.users, o.db.users);
      forall m | 0 <= m < |o.db.userRoles|
        ensures o.db.userRoles[m].userId < NextUserId(o.db.users)
      {
        assert o.db.userRoles[m].userId == db.userRoles[m].userId;
      }
    }
  }

  /** Stamping one user row keeps ids unique and can only shrink the set of
      active codes. */
  lemma StampUser(users: seq<User>, k: nat, now: Instant)
    requires k < |users|
    requires UniqueUserIds(users) && UniqueActiveCodes(users)
    ensures var after := users[k := users[k].(deletedAt := Some(now))];
            UniqueUserIds(after) && UniqueActiveCodes(after)
  {
  }

  /** After a successful remove, neither `findOne` by the id nor
      `findByCode` by the user's code sees the user, and the user has no
      active UserRole row left. */
  lemma RemoveHidesUser(db: Db, id: nat, now: Instant)
    requires WellFormed(db)
    requires Remove(db, id, now).result.Ok?
    ensures var o := Remove(db, id, now);
            var code := db.users[ActiveById(db.users, id).value].code;
            && FindOne(o.db, id) == Err(NotFound)
            && FindByCode(o.db, code).None?
            && LoadUserRoles(o.db, id) == []
  {
    var o := Remove(db, id, now);
    var k := ActiveById(db.users, id).value;
    var code := db.users[k].code;
    forall j | 0 <= j < |o.db.users|
      ensures !(o.db.users[j].id == id && o.db.users[j].deletedAt.None?)
      ensures !(o.db.users[j].code == code && o.db.users[j].deletedAt.None?)
    {
      if j != k {
        assert o.db.users[j] == db.users[j];
      }
    }
  }

  /** The roles `formatUserResponse` lists for a user are roles of the table,
      each named by one of the user's active UserRole rows; when every row's
      role exists, they are exactly those rows' roles, in table order. */
  lemma RespondListsActiveRoles(db: Db, u: User)
    ensures var roles := Respond(db, u).userRoles;
            forall i :: 0 <= i < |roles| ==>
              roles[i] in db.roles
              && exists x :: x in ActiveRowsOf(db.userRoles, u.id) && x.roleId == roles[i].id
    ensures RolesResolve(db) ==>
              var roles := Respond(db, u).userRoles;
              var rows := ActiveRowsOf(db.userRoles, u.id);
              && |roles| == |rows|
              && forall i :: 0 <= i < |roles| ==> roles[i].id == rows[i].roleId
  {
    var nodes := LoadUserRoles(db, u.id);
    var roles := Respond(db, u).userRoles;
    assert roles == RolesOf(nodes);
    forall i | 0 <= i < |roles|
      ensures roles[i] in db.roles
      ensures exists x :: x in ActiveRowsOf(db.userRoles, u.id) && x.roleId == roles[i].id
    {
      assert roles[i] == nodes[i].role.role;
      assert nodes[i].row in ActiveRowsOf(db.userRoles, u.id);
    }
    if RolesResolve(db) {
      LoadUserRolesComplete(db, u.id);
      forall i | 0 <= i < |roles|
        ensures roles[i].id == ActiveRowsOf(db.userRoles, u.id)[i].roleId
      {
        assert roles[i] == nodes[i].role.role;
      }
    }
  }

  /** `findAll` answers for every active user: its response is in the list. */
  lemma FindAllListsEveryActiveUser(db: Db, u: User)
    requires u in db.users && u.deletedAt.None?
    ensures exists i :: 0 <= i < |FindAll(db)| && FindAll(db)[i] == Respond(db, u)
  {
    var users := LoadAll(db);
    assert u in users;
    var i :| 0 <= i < |users| && users[i] == u;
    assert FindAll(db)[i] == Respond(db, u);
  }
}

=== FILE: wrappers.dfy ===
/** Wrappers used throughout the model: `Option` stands for
    the source's nullable values (`null` / `undefined`), `Result` for a value
    or a thrown HTTP exception. */
module Wrappers {

  datatype Option<+T> = None | Some(value: T) {

    /** The value in `Some`, or `default` for `None`. */
    function GetOr(default: T): T {
      match this
      case Some(v) => v
      case None => default
    }
  }

  datatype Result<+T, +E> = Ok(value: T) | Err(error: E)
}
